=== FILE: README.md ===
# OcrBoard selection core, in Dafny

OcrBoard is a Windows tray tool. A global hotkey (Win+Alt+Shift+T) freezes
the virtual screen into one RGBA frame. It then shows that frame in a
top-most overlay where the user drags out a rectangle, crops the rectangle,
uploads it as a PNG to an OCR server, copies the recognised text to the
clipboard and shows it in a message box.

This project models the core of `main.go` as pure Dafny functions and proves
properties of it:

- the pixel helpers: the colour packing, the rectangle normalisation and
  size, the red/blue channel swap, the crop with its int32 arithmetic;
- the screen capture's error ladder and readback;
- the state registry behind `GWLP_USERDATA`;
- the lifetime of the overlay's GDI buffers;
- the geometry of one overlay paint: the dim bands, the alpha-fill guard,
  the border path;
- the window procedure as a state machine;
- `runSelectionWindow`'s polling loop over the windows that exist;
- the UI worker's pipeline;
- the main thread's hotkey/`capturing` hand-off with the worker.

Modules follow the program's structure:

| file | module | what it models |
|---|---|---|
| `wrappers.dfy` | `Wrappers` | `Option` (Go's nil) and `Result` (Go's error) |
| `machine.dfy` | `MachineInt` | int32, byte and uintptr, and int32 wrap-around |
| `geometry.dfy` | `Geometry` | `rgb`, `rectNorm`, `rectWH` |
| `channels.dfy` | `Channels` | the two B/R swap loops and `ensureBGRA` |
| `images.dfy` | `Images` | `image.RGBA` pixel layout and `cropRGBA` |
| `capture.dfy` | `Capture` | `captureVirtualScreenRGBA` |
| `resources.dfy` | `Resources` | `ensureBuffers` / `freeBuffers` |
| `selection.dfy` | `Selection` | the drag state machine of `selectionWndProc` |
| `render.dfy` | `Render` | `paint`, `alphaFillRectFromBlack1x1`, `drawBorder` |
| `registry.dfy` | `Registry` | `allocStateID`, `attachState`, `getStateFromHwnd`, `detachState` |
| `window.dfy` | `Window` | `selectionWndProc`, `DestroyWindow`/WM_DESTROY, `runSelectionWindow` |
| `worker.dfy` | `Worker` | `uiThreadLoop`'s request body |
| `coordinator.dfy` | `Coordinator` | `main`'s hotkey loop and the channel to the worker |

Native calls are inputs of the functions that make them:

- GDI and USER32 handles and success flags;
- `GetCursorPos` is the cursor carried by each input message;
- what `BeginPaint`, `CreateCompatibleDC`/`CreateCompatibleBitmap` and
  `CreatePen` return;
- the PNG encoder and the HTTP upload are function parameters.

A painting is the list of blends, the border polyline and the target
surface, not pixels. The polling loop is a function over a finite sequence
of messages. The two threads are a transition system over one shared state.

## Model

| member | source | states |
|---|---|---|
| MachineInt.Wrap32 | main.go:296-308 | an int32 result is the unique int32 congruent to the exact value modulo 2^32, and equals it when it fits |
| MachineInt.Wrap32Unique | main.go:496-500 | any int32 congruent to x modulo 2^32 is Wrap32(x), so a wrapped difference is determined by its residue |
| Geometry.Rgb | main.go:280-282 | red, green and blue occupy bits 0-7, 8-15 and 16-23 of the COLORREF and each is recovered from it |
| Geometry.RectNorm | main.go:284-294 | the result is normalized and its horizontal and vertical edges are the two input coordinates, in some order |
| Geometry.RectNormSymmetric | main.go:284-294 | swapping the two corners gives the same rectangle |
| Geometry.RectWH | main.go:296-308 | the size is non-negative; for ordered edges it is the int32-wrapped difference, which is 0 when it wraps negative |
| Geometry.WrapOfWideSpan | main.go:296-308 | a difference above INT32_MAX wraps to a negative int32, which rectWH then clamps to 0 |
| Channels.SwapRedBlue | main.go:481-491 | every pixel's channel c is the source's channel with red and blue exchanged, and the length is kept |
| Channels.SwapRedBlueChannels | main.go:481-491 | per pixel bytes 0 and 2 trade places and bytes 1 and 3 stay |
| Channels.SwapRedBlueInvolution | main.go:619-628 | the overlay's BGRA bits, built by the second swap loop, are the bits GetDIBits read |
| Channels.PermuteChannels | main.go:481-491 | the four-byte stepping loop computes exactly SwapRedBlue of its input |
| Channels.EnsureBgra | main.go:612-630 | a cached BGRA buffer is returned unchanged; otherwise a buffer is built whose swap is the RGBA frame |
| Images.Cropped | main.go:513-524 | the copied block has the box's size and each pixel is the source pixel offset by the box's corner |
| Images.Crop | main.go:496-525 | the result is nil exactly when the clamped box is empty, and otherwise the block copied out of that box |
| Images.CopyRows | main.go:517-522 | the row loop concatenates exactly the rows ty..bot of columns lx..rx |
| Images.CropRGBA | main.go:496-525 | int32 differences from the frame origin, the one-sided clamps, the nil case and the row copy agree with Crop |
| Images.CropInsideFrame | main.go:496-525 | a rectangle inside the frame crops to exactly its width and height with the frame's pixels |
| Capture.CaptureVirtualScreen | main.go:413-494 | each native failure gives its own error in call order; a success is a valid vw x vh RGBA frame whose swap is the readback |
| Capture.CapturedPixel | main.go:481-491 | pixel (x, y) of the frame is the readback's B,G,R,A bytes at that place, reordered to R,G,B,A |
| Resources.EnsureSlot | main.go:638-652 | a held slot makes no calls; a slot is filled exactly when both the DC and the bitmap were created, and a DC whose bitmap failed is deleted |
| Resources.EnsureSlotConserves | main.go:638-652 | what the slot owns afterwards plus what it deleted is what it owned plus what was allocated |
| Resources.EnsureBuffers | main.go:632-678 | held buffers are never recreated, pairing is kept, and each buffer exists afterwards exactly when it existed or both of its allocations succeeded |
| Resources.EnsureBuffersConserves | main.go:632-678 | no DC or bitmap is leaked: every one allocated is owned by the session or deleted at once |
| Resources.FreeSlot | main.go:681-686 | the slot is emptied, and calls are made exactly when it held a DC |
| Resources.FreeSlotReleases | main.go:681-686 | the calls delete exactly the handles the slot owned |
| Resources.FreeBuffers | main.go:680-693 | both slots are emptied and freeing empty buffers makes no call |
| Resources.FreeBuffersReleases | main.go:680-693 | freeing deletes exactly the DCs and bitmaps the session owned |
| Resources.FreeBuffersIdempotent | main.go:680-693 | a second free makes no call |
| Resources.LifetimeReleasesEverything | main.go:632-693 | over any sequence of paints followed by the teardown, the handles deleted are exactly the handles allocated |
| Selection.TooSmallIff | main.go:873-877 | the release test `w < 3 or h < 3` on the int32 size rejects exactly the rectangles that are not at least 3 x 3 with int32 sides |
| Selection.Step | main.go:822-883 | button-down starts a drag; a move while dragging tracks the cursor and repaints only on change; button-up ends, canceled when too small; Esc cancels; all else passes to DefWindowProc |
| Selection.Result | main.go:953-956 | a reported rectangle is the normalized span between the two drag endpoints, int32 and at least 3 x 3; canceled is reported exactly when the session was canceled |
| Selection.FeedSettles | main.go:860-883 | every session that ends without being canceled spans a rectangle of at least 3 x 3 |
| Selection.FeedStopsWhenDone | main.go:940-951 | once done, later inputs change nothing |
| Selection.EscapeCancels | main.go:822-831 | Esc ends the session as canceled whatever input came before it that does not itself end the session (no Esc, no button-up) |
| Selection.ClickWithoutDragCancels | main.go:873-877 | a click without movement ends canceled |
| Selection.DragSelectsRectangle | main.go:832-883 | a drag from (100,100) to (400,300) selects that 300 x 200 rectangle |
| Render.SelectionInFrame | main.go:774-786 | the shifted, normalized and clamped selection lies in the frame with int32 edges |
| Render.SelectionOnScreen | main.go:774-786 | for on-screen cursor points the frame selection is the drag rectangle moved by the frame origin |
| Render.SelectionContains | main.go:774-786 | a frame pixel is in the frame selection exactly when the desktop pixel it shows lies in the drag rectangle |
| Render.AlphaFill | main.go:695-708 | nothing is blended without a black source or for a non-positive int32 width or height; exact-size rectangles are blended exactly when non-empty |
| Render.DimRects | main.go:788-796 | before the first drag the one rectangle is the whole frame; after it the four bands lie above, below, left and right of the selection, sharing its edges and reaching the frame edges |
| Render.Fills | main.go:788-796 | the blends performed are among the requested rectangles, and none happen without a black source |
| Render.BorderPath | main.go:710-725 | a closed five-point axis-aligned polyline through the four corners from the top-left, or nothing without a pen |
| Render.Paint | main.go:727-810 | it draws on the back buffer when there is one, else on the window DC, and whatever it draws reaches the window |
| Render.Outline | main.go:798-800 | a border only after a drag has started, and then the path around the frame selection |
| Render.FillsCoverage | main.go:695-708 | with exact int32 sizes the blends cover each pixel as often as the requested rectangles do |
| Render.BandsCoverage | main.go:792-796 | the four bands cover each frame pixel outside the selection exactly once and none inside it |
| Render.PaintDimsOutsideSelection | main.go:788-799 | every frame pixel outside the drag rectangle is dimmed exactly once and every pixel inside it is untouched |
| Render.OutlineIff | main.go:788-798 | for a normalized selection inside the frame the int32 size test is exact: the border is drawn exactly when a drag has started, the selection covers a pixel and the pen exists, starting at the top-left corner |
| Render.BorderIff | main.go:788-800 | the border is drawn exactly when a drag has started, the selection covers a pixel and the pen exists |
| Render.FullHdDrag | main.go:774-800 | on a 1920 x 1080 screen, dragging (100,100) to (400,300) dims the four bands and outlines the 300 x 200 rectangle |
| Registry.AllocStateId | main.go:565-571 | ids are never 0: the counter advances by one and skips 0 when it wraps |
| Registry.Empty | main.go:559-563 | the registry starts consistent with a zero counter, and no window finds a state |
| Registry.Lookup | main.go:584-593 | a state is found exactly when the window's slot is non-zero and names an id still in the map |
| Registry.Attach | main.go:573-582 | the window finds the attached state and every other window's slot is unchanged |
| Registry.Detach | main.go:595-605 | the window finds no state; a zero slot means no change; otherwise exactly its id leaves the map and its slot is cleared, and no other window gains or changes a state |
| Registry.AttachValid | main.go:565-582 | while the 64-bit counter does not wrap, attaching keeps ids unique and live and leaves other windows' states alone |
| Registry.DetachValid | main.go:595-605 | detaching keeps the registry consistent and leaves other windows' states alone |
| Registry.DetachIdempotent | main.go:595-605 | a second detach changes nothing |
| Window.Finish | main.go:884-889 | WM_DESTROY frees the session's buffers, and only the corrected handler marks a still-open session canceled and done |
| Window.OnDestroy | main.go:884-890 | the attached session is finished, no other session changes, and the window ends up detached |
| Window.DestroyWindow | main.go:884-890 | the window is gone and detached after the synchronous WM_DESTROY |
| Window.OnPaint | main.go:727-745 | nothing happens when BeginPaint fails; otherwise the BGRA cache is filled, the buffers are the ones ensureBuffers returns, the picture is paint of this drag onto the back buffer (or the window DC) with those buffers, and the drag is left alone |
| Window.PaintConserves | main.go:741-742 | a paint neither leaks nor double-frees a DC or bitmap |
| Window.PaintMsg | main.go:816-821 | WM_PAINT changes no drag, window or registry entry and returns 0; the session and what is painted and released are exactly OnPaint's, so painting happens exactly when BeginPaint gave a DC |
| Window.Apply | main.go:860-883 | the new drag is stored, other sessions are untouched, and a destroying reaction leaves the window gone, detached and freed |
| Window.InputMsg | main.go:822-883 | pointer and key messages reach the state machine only through an attached state; unhandled ones go to DefWindowProc |
| Window.WndProc | main.go:812-893 | WM_ERASEBKGND returns 1; without an attached state other messages pass to DefWindowProc unchanged; a destroyed window is detached; with a state, WM_PAINT is the paint branch (Window.PaintFollowsOnPaint) and input follows the state machine (Window.InputFollowsStep) |
| Window.PaintFollowsOnPaint | main.go:816-821 | WM_PAINT to a window with an attached state leaves the session and the effects exactly as OnPaint produces them, returns 0, and changes no other session, window or registry entry |
| Window.InputFollowsStep | main.go:822-883 | an input moves the attached drag exactly as the state machine says and touches no other session |
| Window.CloseDestroys | main.go:884-893 | WM_CLOSE frees exactly the owned buffers and detaches, but ends an open session only under the corrected handler |
| Window.Deliver | main.go:940-951 | messages reach the handler only while the window exists |
| Window.Pump | main.go:940-951 | the polling loop keeps the world well formed and never adds or drops a session |
| Window.DeliverStep | main.go:812-893 | one message leaves an open session open or ends it settled; only WM_CLOSE under the handler as written strands it |
| Window.StrandedStays | main.go:940-951 | once the window is gone with the session not done, no message changes anything |
| Window.PumpReachable | main.go:940-951 | the loop keeps the session open, ended or (as written) stranded |
| Window.PumpAppend | main.go:940-951 | running the loop over two batches of messages is running it over both |
| Window.PumpFeeds | main.go:940-951 | fed only pointer and key messages, the loop over the window world moves the session's drag exactly as the drag-level loop Selection.Feed does, and keeps the session open or ended |
| Window.Start | main.go:916-932 | the new window is open and attached to a fresh idle session holding exactly the captured frame and image, with no BGRA cache and no buffers; existing sessions are untouched |
| Window.RunSelectionWindow | main.go:895-957 | CreateWindowExW failing is an error; a reported rectangle is the span of the final drag of the session created for this window, normalized, int32 and at least 3 x 3; canceled is reported exactly for a canceled session; a finished run has destroyed and detached its window |
| Window.Report | main.go:953-956 | the run is waiting exactly while the session is not done; a finished session has ended; a reported rectangle is the span of the session's drag and canceled is reported exactly for a canceled session |
| Window.RunPumps | main.go:931-956 | helper: unfolds a created window's run into the loop over a freshly attached session followed by the report |
| Window.CloseStrands | main.go:884-890 | as written, WM_CLOSE to a waiting session strands it whatever follows |
| Window.CloseCancels | main.go:884-890 | with the corrected handler, WM_CLOSE to a waiting session ends it canceled |
| Window.ClosedWindowHangs | main.go:940-951 | as written, a window closed from outside leaves runSelectionWindow waiting forever with its window gone |
| Window.RunSelectionWindowFeeds | main.go:895-957 | fed only pointer and key input, runSelectionWindow waits exactly while the drag-level loop from an idle drag is not done, and otherwise returns that drag's result, so the Selection.Feed lemmas hold of the real loop |
| Window.EscapeCancelsWindow | main.go:822-831 | Esc after any input that does not end the session makes runSelectionWindow return canceled |
| Window.ClosedWindowCancels | main.go:940-956 | with the corrected handler, a window closed from outside makes runSelectionWindow return canceled |
| Worker.DisplayText | main.go:1029-1036 | empty text shows "(empty)", text up to 2000 runes shows unchanged, longer text shows its first 2000 runes and the truncation note |
| Worker.DisplayTextPrefix | main.go:1033-1036 | the shown text begins with as much of the recognised text as fits |
| Worker.DisplayTextIdempotent | main.go:1029-1036 | shortening the shown text again changes nothing |
| Worker.ProcessRequest | main.go:988-1038 | a failed capture shows its error and nothing else; after a capture, a failed window shows an error box, a canceled selection ends silently and a selected rectangle (the span of the final drag) goes to crop, encode and upload; text is copied only together with the result box that shows it; a request stays unfinished only inside the selection loop, and with the corrected WM_DESTROY handler only while its window exists |
| Worker.ClosedRequestHangs | main.go:988-1006 | as written, a request whose selection window is closed from outside never returns, so WM_UI_DONE is never posted |
| Worker.ClosedRequestEndsQuietly | main.go:988-1008 | with the corrected handler, closing the selection window from outside ends the request with no dialog and nothing copied |
| Worker.AfterSelection | main.go:1010-1037 | an empty crop ends silently; an encoder or upload error shows that error in an error box and copies nothing; a recognition is copied whole and shown shortened in the result box |
| Worker.CopiesFullText | main.go:1027 | the clipboard gets the whole recognised text, not the shortened one |
| Worker.SelectionCropsToSize | main.go:1010-1013 | a selection inside the frame crops to an image of exactly its size, so at least 3 x 3, with the frame's pixels |
| Coordinator.Start | main.go:1073-1077 | the loop starts, with the hotkey registered and nothing captured, exactly when RegisterHotKey succeeds |
| Coordinator.LoopEndsCases | main.go:1084-1089 | GetMessage's 0 and -1 end the loop whether or not -1 arrives sign-extended; positive returns continue |
| Coordinator.Next | main.go:1091-1107 | only a hotkey with the right id and no capture running starts one; WM_UI_DONE ends the capture whether or not re-registration succeeds; the send blocks only on a full channel |
| Coordinator.Outstanding | main.go:988-993 | no request is outstanding exactly when the channel is empty, the worker idle and no WM_UI_DONE pending |
| Coordinator.NextKeepsInv | main.go:1092-1106 | every event keeps exactly one request outstanding during a capture and none otherwise, and an accepted hotkey finds the channel empty |
| Coordinator.TraceNeverBlocks | main.go:1079-1107 | under any interleaving of the two threads the main thread never blocks on the send and at most one capture is under way |
| Coordinator.HotkeyDuringCaptureIgnored | main.go:1093 | a hotkey that arrives during a capture changes nothing |
| Coordinator.CaptureCycle | main.go:1092-1106 | hotkey, worker take, worker return and WM_UI_DONE bring the loop back to its starting state |
| Coordinator.FailedReregistration | main.go:1103-1106 | a failed re-registration still clears `capturing`, leaving the hotkey unregistered |

## Left out

- The DLL calls themselves. The `syscall` plumbing, `unsafe` pointers and
  `runtime.KeepAlive` have no counterpart; each call's outcome is an input.
- The `time.Sleep` when PeekMessage finds nothing. Sleeping changes no
  state, so the loop is a function of the messages it receives.
- Threads, the mutex and the atomic counter. The registry is one value,
  and the main thread and the worker are interleaved by an arbitrary event
  sequence.
- PNG encoding, the HTTP upload, the clipboard write and the message box.
  The encoder and upload are parameters. The clipboard write's error is
  ignored in the source, so the model records only the text it is given.
- Command-line flags, the API URL, `setDPIAware`, the window class
  registration and `SetWindowPos`/`SetForegroundWindow`. They change no
  state of the core.
- The pen's style, width (5) and colour (cyan). CreatePen's result is an
  input of the paint, so the arguments it was called with are not modelled.
- The pen and the black brush. The ownership accounting covers the DCs
  and bitmaps of the buffers only. The pen is an input of the paint, and
  its and the brush's creation and deletion are not tracked.
- `packBlend` and the black brush fill of the 1x1 source. They are
  constants of the blend; the model keeps the blend factor `DIM_ALPHA`.
- Messages sent while `CreateWindowExW` runs, before the state is attached.
  The handler passes them to DefWindowProc, which the model also does for
  any window without a state.
- Capture.CaptureVirtualScreen: it requires a non-empty screen whose byte
  count `vw*vh*4` fits in int32. The source computes it in int32 and
  indexes `&buf[0]`, which would panic on an empty buffer.
- Registry.AttachValid: freshness of ids is proved only while the 64-bit
  counter does not wrap (2^64 attachments).
- Window.WndProc: the registry's own consistency (`Registry.Valid`) is not
  part of the window invariant. The window proofs only need every registry
  entry to name an existing session.
- Render.PaintDimsOutsideSelection: stated for cursor points on the virtual
  screen. GetCursorPos only reports such points.
- Worker.SelectionCropsToSize: stated for a selection inside the frame.
  That holds when both cursor points were on the virtual screen, but it is
  not carried through the window model.
- Worker.DisplayText: strings are sequences of runes. Go's `[]rune`
  conversion of invalid UTF-8 (to U+FFFD) is not modelled.
- Coordinator.Next: the GetMessage exit and the deferred `unregisterHotkey`
  at the end of `main` are modelled only as `LoopEnds`. WM_UI_DONE posted by
  another process is not considered.

## Findings

| source | as written | input that shows it | evidently intended | confidence | as-written member | corrected member |
|---|---|---|---|---|---|---|
| main.go:884-890 | WM_DESTROY frees the buffers and detaches the state but never sets `done`. `runSelectionWindow` polls `for !st.done` (940-951), so a window destroyed other than by Esc or button-up leaves the loop spinning forever. WM_UI_DONE is then never posted and the hotkey is never re-registered. | WM_CLOSE while the overlay is open, e.g. Alt+F4. DefWindowProc calls DestroyWindow. | A window destroyed while the session is open ends the session as canceled. | medium; not executed | Window.ClosedWindowHangs | Window.ClosedWindowCancels |

In the model the WM_DESTROY handler takes a flag. `false` is the handler as
written. `true` is the corrected one, which also sets `canceled` and `done`
on a session that is not yet done. The worker's request takes the same
flag: Worker.ClosedRequestHangs runs it as written and
Worker.ClosedRequestEndsQuietly runs it corrected.

=== FILE: capture.dfy ===
/** captureVirtualScreenRGBA: one copy of the whole virtual screen into an
    RGBA frame. The native calls (GetDC, CreateCompatibleDC,
    CreateCompatibleBitmap, BitBlt, GetDIBits) are not modelled; their
    outcomes are an input, and the model decides which failure is reported
    and what frame is produced. */
module Capture {
  import opened MachineInt
  import opened Wrappers
  import opened Geometry
  import opened Channels
  import opened Images

  /** Each native step fails with its own cause; there is no retry. */
  datatype CaptureError =
    | GetDCFailed
    | CreateCompatibleDCFailed
    | CreateCompatibleBitmapFailed
    | BitBltFailed
    | GetDIBitsFailed

  function ErrorText(e: CaptureError): string {
    match e
    case GetDCFailed => "GetDC failed"
    case CreateCompatibleDCFailed => "CreateCompatibleDC failed"
    case CreateCompatibleBitmapFailed => "CreateCompatibleBitmap failed"
    case BitBltFailed => "BitBlt failed"
    case GetDIBitsFailed => "GetDIBits failed"
  }

  /** What the operating system answered: the three handles (0 is failure),
      whether the block copy succeeded, and the BGRA bytes GetDIBits wrote
      (None when it returned 0). */
  datatype Native = Native(screenDC: uintptr, memDC: uintptr, bitmap: uintptr, blitOk: bool, readback: Option<seq<byte>>)

  /** A captured frame: the virtual screen's origin and size with its RGBA pixels. */
  datatype Frame = Frame(view: View, img: Image)

  predicate ValidReadback(v: View, n: Native) {
    n.readback.Some? ==> |n.readback.value| == v.vw * v.vh * 4
  }

  function CaptureVirtualScreen(v: View, n: Native): (r: Result<Frame, CaptureError>)
    requires v.vw >= 1 && v.vh >= 1 && v.vw * v.vh * 4 <= INT32_MAX
    requires ValidReadback(v, n)
    ensures r.Success? <==> n.screenDC != 0 && n.memDC != 0 && n.bitmap != 0 && n.blitOk && n.readback.Some?
    ensures n.screenDC == 0 ==> r == Failure(GetDCFailed)
    ensures n.screenDC != 0 && n.memDC == 0 ==> r == Failure(CreateCompatibleDCFailed)
    ensures n.screenDC != 0 && n.memDC != 0 && n.bitmap == 0 ==> r == Failure(CreateCompatibleBitmapFailed)
    ensures n.screenDC != 0 && n.memDC != 0 && n.bitmap != 0 && !n.blitOk ==> r == Failure(BitBltFailed)
    ensures n.screenDC != 0 && n.memDC != 0 && n.bitmap != 0 && n.blitOk && n.readback.None? ==> r == Failure(GetDIBitsFailed)
    ensures r.Success? ==>
      r.value.view == v && r.value.img.Valid() &&
      r.value.img.width == v.vw && r.value.img.height == v.vh &&
      SwapRedBlue(r.value.img.pix) == n.readback.value
  {
    if n.screenDC == 0 then Failure(GetDCFailed)
    else if n.memDC == 0 then Failure(CreateCompatibleDCFailed)
    else if n.bitmap == 0 then Failure(CreateCompatibleBitmapFailed)
    else if !n.blitOk then Failure(BitBltFailed)
    else if n.readback.None? then Failure(GetDIBitsFailed)
    else
      var buf := n.readback.value;
      assert |buf| == v.vw * v.vh * 4;
      SwapRedBlueInvolution(buf);
      Success(Frame(v, Image(v.vw, v.vh, SwapRedBlue(buf))))
  }

  /** Pixel (x, y) of a captured frame holds the red, green, blue and alpha
      bytes GetDIBits wrote as blue, green, red, alpha at the same place. */
  lemma CapturedPixel(v: View, n: Native, x: nat, y: nat)
    requires v.vw >= 1 && v.vh >= 1 && v.vw * v.vh * 4 <= INT32_MAX
    requires ValidReadback(v, n)
    requires CaptureVirtualScreen(v, n).Success?
    requires x < v.vw && y < v.vh
    ensures var img := CaptureVirtualScreen(v, n).value.img;
            var buf := n.readback.value;
            var o := PixOffset(img, x, y);
            0 <= o && o + 4 <= |buf| &&
            PixelAt(img, x, y) == [buf[o + 2], buf[o + 1], buf[o], buf[o + 3]]
  {
    var img := CaptureVirtualScreen(v, n).value.img;
    var buf := n.readback.value;
    var o := PixOffset(img, x, y);
    PixOffsetBounds(img, x, y);
    var p := y * img.width + x;
    assert o == 4 * p;
    SwapRedBlueChannels(buf, p);
  }
}

=== FILE: channels.dfy ===
/** The channel permutation between the GDI readback layout (B, G, R, A per
    pixel) and Go's image.RGBA layout (R, G, B, A). The capture readback
    applies it once to turn the GetDIBits buffer into RGBA, and the overlay
    applies it again to turn the RGBA frame back into the BGRA bits that
    StretchDIBits expects. */
module Channels {
  import opened MachineInt
  import opened Wrappers

  /** Channel `c` of pixel `p` in a buffer of packed 4-byte pixels. */
  function Channel(px: seq<byte>, p: nat, c: nat): byte
    requires c < 4 && 4 * p + 4 <= |px|
  {
    px[4 * p + c]
  }

  /** The channel that lands in slot `c` when red and blue trade places. */
  function Swapped(c: nat): nat
    requires c < 4
  {
    if c == 0 then 2 else if c == 2 then 0 else c
  }

  /** Swaps red and blue in every pixel of a packed 32-bit buffer. */
  function SwapRedBlue(px: seq<byte>): (r: seq<byte>)
    requires |px| % 4 == 0
    ensures |r| == |px|
    ensures forall p: nat, c: nat | c < 4 && 4 * p + 4 <= |px| :: Channel(r, p, c) == Channel(px, p, Swapped(c))
    decreases |px|
  {
    if |px| == 0 then []
    else
      var rest := SwapRedBlue(px[4..]);
      var r := [px[2], px[1], px[0], px[3]] + rest;
      assert forall p: nat, c: nat | 1 <= p && c < 4 && 4 * p + 4 <= |px| ::
        Channel(r, p, c) == Channel(rest, p - 1, c) && Channel(px, p, Swapped(c)) == Channel(px[4..], p - 1, Swapped(c));
      r
  }

  /** Per pixel: bytes 1 (green) and 3 (alpha) are kept, bytes 0 and 2 trade. */
  lemma SwapRedBlueChannels(px: seq<byte>, p: nat)
    requires |px| % 4 == 0 && 4 * p + 4 <= |px|
    ensures var r := SwapRedBlue(px);
            r[4 * p] == px[4 * p + 2] && r[4 * p + 1] == px[4 * p + 1] &&
            r[4 * p + 2] == px[4 * p] && r[4 * p + 3] == px[4 * p + 3]
  {
    var r := SwapRedBlue(px);
    assert Channel(r, p, 0) == Channel(px, p, 2);
    assert Channel(r, p, 1) == Channel(px, p, 1);
    assert Channel(r, p, 2) == Channel(px, p, 0);
    assert Channel(r, p, 3) == Channel(px, p, 3);
  }

  /** Applying the swap twice gives the buffer back: the BGRA bits painted by
      the overlay are exactly the bits GetDIBits read from the screen. */
  lemma {:induction false} SwapRedBlueInvolution(px: seq<byte>)
    requires |px| % 4 == 0
    ensures SwapRedBlue(SwapRedBlue(px)) == px
    decreases |px|
  {
    if |px| > 0 {
      var once := SwapRedBlue(px);
      assert once == [px[2], px[1], px[0], px[3]] + SwapRedBlue(px[4..]);
      assert once[4..] == SwapRedBlue(px[4..]);
      SwapRedBlueInvolution(px[4..]);
      assert SwapRedBlue(once) == [px[0], px[1], px[2], px[3]] + px[4..];
    }
  }

  /** The readback loop of the capture (and the identical loop that builds the
      overlay's BGRA bits): walks the buffer four bytes at a time. */
  method PermuteChannels(src: seq<byte>) returns (dst: seq<byte>)
    requires |src| % 4 == 0
    ensures dst == SwapRedBlue(src)
  {
    var a := new byte[|src|];
    var i := 0;
    while i < |src|
      invariant 0 <= i <= |src| && i % 4 == 0
      invariant forall p: nat, c: nat | c < 4 && 4 * p + 4 <= i :: Channel(a[..], p, c) == Channel(src, p, Swapped(c))
    {
      ghost var before := a[..];
      a[i + 0] := src[i + 2];
      a[i + 1] := src[i + 1];
      a[i + 2] := src[i + 0];
      a[i + 3] := src[i + 3];
      assert forall k | 0 <= k < i :: a[k] == before[k];
      i := i + 4;
    }
    dst := a[..];
    var spec := SwapRedBlue(src);
    forall k | 0 <= k < |src|
      ensures dst[k] == spec[k]
    {
      var p := k / 4;
      assert k == 4 * p + k % 4;
      assert Channel(dst, p, k % 4) == Channel(spec, p, k % 4);
    }
  }

  /** ensureBGRA: the BGRA bits are built once from the RGBA frame and cached;
      a later call returns the cached bits unchanged. */
  function EnsureBgra(cache: Option<seq<byte>>, rgba: seq<byte>): (bgra: seq<byte>)
    requires |rgba| % 4 == 0
    ensures cache.Some? ==> bgra == cache.value
    ensures cache.None? ==> |bgra| == |rgba| && SwapRedBlue(bgra) == rgba
  {
    match cache
    case Some(bits) => bits
    case None =>
      SwapRedBlueInvolution(rgba);
      SwapRedBlue(rgba)
  }
}

=== FILE: coordinator.dfy ===
/** The main thread's hotkey loop and its hand-off to the UI worker.
    The main thread owns the hotkey: on a matching WM_HOTKEY that arrives
    while no capture is running it unregisters the hotkey and sends one
    request into a channel of capacity 1; the worker takes it, handles it
    and, on every path out, posts WM_UI_DONE, on which the main thread
    registers the hotkey again and accepts the next hotkey. */
module Coordinator {
  import opened MachineInt
  import opened Wrappers

  const HOTKEY_ID: i32 := 0xBEEF
  /** Capacity of the request channel. */
  const CAPACITY := 1

  /** Both threads at one moment: the main thread's `capturing` flag and
      whether the hotkey is registered; the requests waiting in the channel;
      whether the worker is handling one; the WM_UI_DONE messages posted to
      the main thread and not yet retrieved. */
  datatype Coord = Coord(capturing: bool, registered: bool, queued: nat, busy: bool, posted: nat)

  /** What can happen next: a message retrieved by the main thread (a
      WM_HOTKEY with its wParam, WM_UI_DONE with the result of the
      RegisterHotKey call it triggers, or any other message), the worker
      taking a request, or the worker returning from one. GetMessage's own
      return value is judged separately by LoopEnds. */
  datatype Event =
    | Hotkey(wParam: uintptr)
    | UiDone(registerOk: bool)
    | Other
    | Take
    | Finish

  /** main's start: a failed RegisterHotKey ends the program. */
  function Start(registerOk: bool): (r: Option<Coord>)
    ensures r.Some? <==> registerOk
    ensures r.Some? ==> Inv(r.value) && !r.value.capturing && r.value.registered
  {
    if registerOk then Some(Coord(false, true, 0, false, 0)) else None
  }

  /** GetMessage's BOOL result, read as int32: 0 (WM_QUIT) and -1 (error)
      end the loop. Only the low 32 bits count. */
  predicate LoopEnds(rv: uintptr) {
    Wrap32(rv) == 0 || Wrap32(rv) == -1
  }

  /** An error return of -1 ends the loop whether or not the upper half of
      the register was sign-extended; a positive return keeps it going. */
  lemma LoopEndsCases()
    ensures LoopEnds(0) && LoopEnds(0xFFFF_FFFF) && LoopEnds(TWO_64 - 1)
    ensures forall rv: uintptr | 0 < rv <= INT32_MAX :: !LoopEnds(rv)
  {
    Wrap32Unique(0xFFFF_FFFF, -1);
    Wrap32Unique(TWO_64 - 1, -1);
    assert TWO_64 - 1 - (-1) == 0x1_0000_0000 * 0x1_0000_0000;
  }

  /** The hotkey test `int32(msg.WParam) == HOTKEY_ID && !capturing`. */
  predicate Accepts(c: Coord, wParam: uintptr) {
    Wrap32(wParam) == HOTKEY_ID && !c.capturing
  }

  /** One event. `None` means the main thread would block on a full
      channel; an event of the worker that cannot happen yet (nothing to
      take, nothing being handled) and a WM_UI_DONE that was never posted
      change nothing. */
  function Next(c: Coord, e: Event): (r: Option<Coord>)
    // a matching hotkey starts a capture: unregister, then send
    ensures e.Hotkey? && Accepts(c, e.wParam) ==>
              (c.queued < CAPACITY ==> r == Some(c.(capturing := true, registered := false, queued := c.queued + 1))) &&
              (c.queued >= CAPACITY ==> r.None?)
    // any other hotkey, and any other message, is ignored
    ensures (e.Hotkey? && !Accepts(c, e.wParam)) || e.Other? ==> r == Some(c)
    // WM_UI_DONE re-registers (the result only decides `registered`) and ends the capture
    ensures e.UiDone? && c.posted > 0 ==>
              r == Some(c.(capturing := false, registered := e.registerOk, posted := c.posted - 1))
    ensures e.Take? && c.queued > 0 && !c.busy ==> r == Some(c.(queued := c.queued - 1, busy := true))
    // the worker's deferred post
    ensures e.Finish? && c.busy ==> r == Some(c.(busy := false, posted := c.posted + 1))
    ensures (e.UiDone? && c.posted == 0) || (e.Take? && (c.queued == 0 || c.busy)) || (e.Finish? && !c.busy) ==> r == Some(c)
  {
    match e
    case Hotkey(wParam) =>
      if !Accepts(c, wParam) then Some(c)
      else if c.queued >= CAPACITY then None
      else Some(c.(capturing := true, registered := false, queued := c.queued + 1))
    case UiDone(ok) =>
      if c.posted == 0 then Some(c) else Some(c.(capturing := false, registered := ok, posted := c.posted - 1))
    case Other => Some(c)
    case Take =>
      if c.queued == 0 || c.busy then Some(c) else Some(c.(queued := c.queued - 1, busy := true))
    case Finish =>
      if !c.busy then Some(c) else Some(c.(busy := false, posted := c.posted + 1))
  }

  /** The requests on their way: waiting in the channel, being handled, or
      announced by a WM_UI_DONE not yet retrieved. */
  function Outstanding(c: Coord): (n: nat)
    ensures n == 0 <==> c.queued == 0 && !c.busy && c.posted == 0
  {
    c.queued + (if c.busy then 1 else 0) + c.posted
  }

  /** The hand-off invariant: exactly one request is outstanding while
      capturing and none otherwise, and the hotkey is not registered
      during a capture. */
  predicate Inv(c: Coord) {
    Outstanding(c) == (if c.capturing then 1 else 0) && (c.capturing ==> !c.registered)
  }

  /** Every event keeps the invariant, and the main thread never blocks on
      the send: a hotkey is accepted only when the channel is empty. */
  lemma NextKeepsInv(c: Coord, e: Event)
    requires Inv(c)
    ensures Next(c, e).Some? && Inv(Next(c, e).value)
    ensures e.Hotkey? && Accepts(c, e.wParam) ==> c.queued == 0
  {
  }

  /** A run of events from the main thread and the worker, in any interleaving. */
  function Trace(c: Coord, es: seq<Event>): (r: Option<Coord>)
    decreases |es|
  {
    if |es| == 0 then Some(c)
    else
      match Next(c, es[0])
      case None => None
      case Some(c1) => Trace(c1, es[1..])
  }

  /** Under any interleaving the main thread never blocks and at most one
      capture is under way. */
  lemma {:induction false} TraceNeverBlocks(c: Coord, es: seq<Event>)
    requires Inv(c)
    ensures Trace(c, es).Some? && Inv(Trace(c, es).value) && Outstanding(Trace(c, es).value) <= 1
    decreases |es|
  {
    if |es| > 0 {
      NextKeepsInv(c, es[0]);
      TraceNeverBlocks(Next(c, es[0]).value, es[1..]);
    }
  }

  /** While a capture is under way a further hotkey (for instance one that
      was already queued before the unregistration) is ignored. */
  lemma HotkeyDuringCaptureIgnored(c: Coord, wParam: uintptr)
    requires Inv(c) && c.capturing
    ensures Next(c, Hotkey(wParam)) == Some(c)
  {
  }

  /** A full cycle: hotkey, worker takes, worker returns, WM_UI_DONE with a
      successful re-registration — back where it started. */
  lemma CaptureCycle()
    ensures var c := Start(true).value;
            Trace(c, [Hotkey(0xBEEF), Take, Finish, UiDone(true)]) == Some(c)
  {
    var c := Start(true).value;
    var c1 := c.(capturing := true, registered := false, queued := 1);
    var c2 := c1.(queued := 0, busy := true);
    var c3 := c2.(busy := false, posted := 1);
    assert Next(c, Hotkey(0xBEEF)) == Some(c1);
    assert Next(c1, Take) == Some(c2);
    assert Next(c2, Finish) == Some(c3);
    assert Next(c3, UiDone(true)) == Some(c);
    assert Trace(c3, [UiDone(true)]) == Some(c);
    assert Trace(c2, [Finish, UiDone(true)]) == Trace(c3, [UiDone(true)]);
    assert Trace(c1, [Take, Finish, UiDone(true)]) == Trace(c2, [Finish, UiDone(true)]);
  }

  /** A failed re-registration still ends the capture: `capturing` is
      cleared, but the hotkey stays unregistered, so only a WM_HOTKEY that
      was already queued can start another capture. */
  lemma FailedReregistration(c: Coord)
    requires Inv(c) && c.posted > 0
    ensures var r := Next(c, UiDone(false)).value;
            !r.capturing && !r.registered && Outstanding(r) == 0
  {
  }
}

=== FILE: geometry.dfy ===
/** Points, rectangles and the two rectangle helpers of the selection code:
    `rectNorm` orders two drag endpoints into a rectangle and `rectWH` turns
    a rectangle into a non-negative size, computed in int32 arithmetic. */
module Geometry {
  import opened MachineInt

  /** A cursor position in desktop coordinates (Go's POINT). */
  datatype Point = Point(x: i32, y: i32)

  /** A rectangle with exclusive right and bottom edges (Go's RECT). */
  datatype Rect = Rect(left: int, top: int, right: int, bottom: int) {

    /** The pixel (x, y) lies inside the rectangle. */
    predicate Contains(x: int, y: int) {
      left <= x < right && top <= y < bottom
    }

    predicate Normalized() {
      left <= right && top <= bottom
    }

    /** Every edge is an int32, as in Go's RECT. */
    predicate Fits32() {
      InInt32(left) && InInt32(top) && InInt32(right) && InInt32(bottom)
    }
  }

  /** The virtual screen: desktop origin (vx, vy) and size vw x vh. */
  datatype View = View(vx: i32, vy: i32, vw: i32, vh: i32)

  datatype Size = Size(w: int, h: int)

  /** A COLORREF: red in bits 0-7, green in bits 8-15, blue in bits 16-23.
      The channels occupy disjoint bits, so the Go bitwise OR is a sum. */
  function Rgb(r: byte, g: byte, b: byte): (c: nat)
    ensures c < 0x100_0000
    ensures c % 0x100 == r
    ensures (c / 0x100) % 0x100 == g
    ensures c / 0x1_0000 == b
  {
    r + g * 0x100 + b * 0x1_0000
  }

  /** Orders the endpoints of a drag: the result holds the same two x values
      and the same two y values, smaller one first. */
  function RectNorm(x1: i32, y1: i32, x2: i32, y2: i32): (rc: Rect)
    ensures rc.Normalized()
    ensures (rc.left, rc.right) == (x1, x2) || (rc.left, rc.right) == (x2, x1)
    ensures (rc.top, rc.bottom) == (y1, y2) || (rc.top, rc.bottom) == (y2, y1)
  {
    var (l, r) := if x1 > x2 then (x2, x1) else (x1, x2);
    var (t, b) := if y1 > y2 then (y2, y1) else (y1, y2);
    Rect(l, t, r, b)
  }

  /** Dragging from one endpoint to the other or back gives one rectangle. */
  lemma RectNormSymmetric(x1: i32, y1: i32, x2: i32, y2: i32)
    ensures RectNorm(x1, y1, x2, y2) == RectNorm(x2, y2, x1, y1)
  {
  }

  /** Width and height of a rectangle, computed as int32 differences and
      clamped at zero. The closed forms below say what that is when the
      difference does not wrap, and that a wrapped difference of a
      normalized rectangle also collapses to zero. */
  function RectWH(l: i32, t: i32, r: i32, b: i32): (s: Size)
    ensures s.w >= 0 && s.h >= 0
    ensures InInt32(s.w) && InInt32(s.h)
    ensures l <= r ==> s.w == (if r - l <= INT32_MAX then r - l else 0)
    ensures t <= b ==> s.h == (if b - t <= INT32_MAX then b - t else 0)
    ensures r < l && InInt32(r - l) ==> s.w == 0
    ensures b < t && InInt32(b - t) ==> s.h == 0
  {
    WrapOfWideSpan(r - l);
    WrapOfWideSpan(b - t);
    var w := Wrap32(r - l);
    var h := Wrap32(b - t);
    Size(if w < 0 then 0 else w, if h < 0 then 0 else h)
  }

  /** A non-negative span too wide for int32 wraps to a negative int32. */
  lemma WrapOfWideSpan(d: int)
    requires -TWO_32 < d < TWO_32
    ensures INT32_MAX < d ==> Wrap32(d) == d - TWO_32 && Wrap32(d) < 0
  {
    if INT32_MAX < d {
      assert (d - (d - TWO_32)) % TWO_32 == 0;
      Wrap32Unique(d, d - TWO_32);
    }
  }
}

=== FILE: images.dfy ===
/** Go's image.RGBA as used by the capture: an image anchored at (0, 0) whose
    pixels are 4 bytes (R, G, B, A) packed row after row, and `cropRGBA`,
    which copies the part of a desktop-coordinate rectangle that lies inside
    the captured frame. */
module Images {
  import opened MachineInt
  import opened Wrappers

  datatype Image = Image(width: nat, height: nat, pix: seq<byte>) {
    /** image.NewRGBA allocates exactly 4 bytes per pixel. */
    predicate Valid() {
      |pix| == width * height * 4
    }
  }

  /** image.RGBA.PixOffset: rows are Stride = 4 * width bytes apart. */
  function PixOffset(img: Image, x: int, y: int): int {
    y * (img.width * 4) + x * 4
  }

  lemma MulLeft(a: int, b: int, c: int)
    requires a <= b && 0 <= c
    ensures a * c <= b * c
  {
  }

  /** Every pixel of a valid image, and every row end, lies inside `pix`. */
  lemma PixOffsetBounds(img: Image, x: int, y: int)
    requires img.Valid() && 0 <= x <= img.width && 0 <= y < img.height
    ensures 0 <= PixOffset(img, x, y) <= |img.pix|
    ensures x < img.width ==> PixOffset(img, x, y) + 4 <= |img.pix|
  {
    var s := img.width * 4;
    MulLeft(y + 1, img.height, s);
    assert (y + 1) * s == y * s + s;
    assert img.height * s == |img.pix|;
  }

  /** The four bytes of pixel (x, y). */
  function PixelAt(img: Image, x: nat, y: nat): seq<byte>
    requires img.Valid() && x < img.width && y < img.height
  {
    PixOffsetBounds(img, x, y);
    img.pix[PixOffset(img, x, y)..PixOffset(img, x, y) + 4]
  }

  /** Bytes of row y from column lx up to (not including) column rx. */
  function RowBytes(img: Image, y: nat, lx: nat, rx: nat): (s: seq<byte>)
    requires img.Valid() && lx <= rx <= img.width && y < img.height
    ensures |s| == (rx - lx) * 4
  {
    PixOffsetBounds(img, lx, y);
    PixOffsetBounds(img, rx, y);
    img.pix[PixOffset(img, lx, y)..PixOffset(img, rx, y)]
  }

  /** Rows ty .. ty+n-1 of the column range [lx, rx), concatenated. */
  function Rows(img: Image, lx: nat, rx: nat, ty: nat, n: nat): (s: seq<byte>)
    requires img.Valid() && lx <= rx <= img.width && ty + n <= img.height
    ensures |s| == n * ((rx - lx) * 4)
    decreases n
  {
    if n == 0 then []
    else Rows(img, lx, rx, ty, n - 1) + RowBytes(img, ty + n - 1, lx, rx)
  }

  lemma MulStep(k: nat, len: nat)
    ensures k * len + len == (k + 1) * len
  {
  }

  lemma ConcatSliceLeft<T>(a: seq<T>, b: seq<T>, i: nat, k: nat)
    requires i <= k <= |a|
    ensures (a + b)[i..k] == a[i..k]
  {
  }

  lemma ConcatSliceRight<T>(a: seq<T>, b: seq<T>)
    ensures (a + b)[|a|..|a| + |b|] == b
  {
  }

  lemma MulMono(a: nat, b: nat, len: nat)
    requires a <= b
    ensures a * len <= b * len
  {
  }

  /** The last of n rows occupies the final rowLength bytes. */
  lemma RowsLast(img: Image, lx: nat, rx: nat, ty: nat, n: nat)
    requires img.Valid() && lx <= rx <= img.width && ty + n <= img.height && n > 0
    ensures var len := (rx - lx) * 4;
            (n - 1) * len + len == |Rows(img, lx, rx, ty, n)| &&
            Rows(img, lx, rx, ty, n)[(n - 1) * len..(n - 1) * len + len] == RowBytes(img, ty + n - 1, lx, rx)
  {
    var len := (rx - lx) * 4;
    MulStep(n - 1, len);
    ConcatSliceRight(Rows(img, lx, rx, ty, n - 1), RowBytes(img, ty + n - 1, lx, rx));
  }

  /** An earlier row lies inside the first n - 1 rows, which appending the
      last row leaves in place. */
  lemma RowsEarlier(img: Image, lx: nat, rx: nat, ty: nat, n: nat, j: nat)
    requires img.Valid() && lx <= rx <= img.width && ty + n <= img.height && j + 1 < n
    ensures var len := (rx - lx) * 4;
            j * len + len <= |Rows(img, lx, rx, ty, n - 1)| &&
            Rows(img, lx, rx, ty, n)[j * len..j * len + len] == Rows(img, lx, rx, ty, n - 1)[j * len..j * len + len]
  {
    var len := (rx - lx) * 4;
    MulStep(j, len);
    MulMono(j + 1, n - 1, len);
    ConcatSliceLeft(Rows(img, lx, rx, ty, n - 1), RowBytes(img, ty + n - 1, lx, rx), j * len, j * len + len);
  }

  /** Row j of a concatenation of rows sits at offset j * rowLength. */
  lemma {:induction false} RowsSlice(img: Image, lx: nat, rx: nat, ty: nat, n: nat, j: nat)
    requires img.Valid() && lx <= rx <= img.width && ty + n <= img.height && j < n
    ensures var len := (rx - lx) * 4;
            j * len + len <= |Rows(img, lx, rx, ty, n)| &&
            Rows(img, lx, rx, ty, n)[j * len..j * len + len] == RowBytes(img, ty + j, lx, rx)
  {
    if j + 1 < n {
      RowsEarlier(img, lx, rx, ty, n, j);
      RowsSlice(img, lx, rx, ty, n - 1, j);
    } else {
      RowsLast(img, lx, rx, ty, n);
    }
  }

  lemma SliceOfSlice<T>(s: seq<T>, a: nat, b: nat, c: nat, e: nat)
    requires a <= b <= |s| && c <= e <= b - a
    ensures s[a..b][c..e] == s[a + c..a + e]
  {
    forall i | 0 <= i < e - c
      ensures s[a..b][c..e][i] == s[a + c..a + e][i]
    {
    }
  }

  /** Pixel x of a row slice is pixel (lx + x, y) of the image. */
  lemma RowPixel(img: Image, y: nat, lx: nat, rx: nat, x: nat)
    requires img.Valid() && lx <= rx <= img.width && y < img.height && x < rx - lx
    ensures RowBytes(img, y, lx, rx)[x * 4..x * 4 + 4] == PixelAt(img, lx + x, y)
  {
    var start := PixOffset(img, lx, y);
    PixOffsetBounds(img, lx, y);
    PixOffsetBounds(img, rx, y);
    SliceOfSlice(img.pix, start, PixOffset(img, rx, y), x * 4, x * 4 + 4);
    assert PixOffset(img, lx + x, y) == start + x * 4;
  }

  /** The block of n rows of rx - lx pixels is a valid image of that size. */
  lemma BlockValid(img: Image, lx: nat, rx: nat, ty: nat, n: nat)
    requires img.Valid() && lx <= rx <= img.width && ty + n <= img.height
    ensures Image(rx - lx, n, Rows(img, lx, rx, ty, n)).Valid()
  {
    var w := rx - lx;
    assert |Rows(img, lx, rx, ty, n)| == n * (w * 4);
    assert w * n * 4 == n * (w * 4);
  }

  /** Pixel (x, y) of a valid image, read through the row it lies in. */
  lemma PixelInRow(dst: Image, x: nat, y: nat)
    requires dst.Valid() && x < dst.width && y < dst.height
    ensures var len := dst.width * 4;
            y * len + len <= |dst.pix| &&
            PixelAt(dst, x, y) == dst.pix[y * len..y * len + len][x * 4..x * 4 + 4]
  {
    var len := dst.width * 4;
    PixOffsetBounds(dst, dst.width, y);
    assert PixOffset(dst, dst.width, y) == y * len + len;
    SliceOfSlice(dst.pix, y * len, y * len + len, x * 4, x * 4 + 4);
  }

  /** Pixel (x, y) of a block of rows is bytes 4x .. 4x+3 of its row y. */
  lemma BlockPixel(img: Image, lx: nat, rx: nat, ty: nat, n: nat, x: nat, y: nat)
    requires img.Valid() && lx <= rx <= img.width && ty + n <= img.height
    requires x < rx - lx && y < n
    ensures var dst := Image(rx - lx, n, Rows(img, lx, rx, ty, n));
            dst.Valid() && PixelAt(dst, x, y) == RowBytes(img, ty + y, lx, rx)[x * 4..x * 4 + 4]
  {
    var dst := Image(rx - lx, n, Rows(img, lx, rx, ty, n));
    BlockValid(img, lx, rx, ty, n);
    RowsSlice(img, lx, rx, ty, n, y);
    PixelInRow(dst, x, y);
  }

  /** Pixel (x, y) of the block built from rows ty.. of columns [lx, rx) is
      pixel (lx + x, ty + y) of the source. */
  lemma CropPixel(img: Image, lx: nat, rx: nat, ty: nat, n: nat, x: nat, y: nat)
    requires img.Valid() && lx <= rx <= img.width && ty + n <= img.height
    requires x < rx - lx && y < n
    ensures var dst := Image(rx - lx, n, Rows(img, lx, rx, ty, n));
            dst.Valid() && PixelAt(dst, x, y) == PixelAt(img, lx + x, ty + y)
  {
    BlockPixel(img, lx, rx, ty, n, x, y);
    RowPixel(img, ty + y, lx, rx, x);
  }

  /** The crop rectangle in image coordinates, clamped to the image the way
      cropRGBA does it: left/top only from below, right/bottom only from above. */
  datatype Box = Box(lx: int, ty: int, rx: int, bot: int)

  function CropBox(img: Image, vx: i32, vy: i32, l: i32, t: i32, r: i32, b: i32): (bx: Box)
    ensures bx.lx >= 0 && bx.ty >= 0 && bx.rx <= img.width && bx.bot <= img.height
  {
    var lx := Wrap32(l - vx);
    var ty := Wrap32(t - vy);
    var rx := Wrap32(r - vx);
    var bot := Wrap32(b - vy);
    Box(if lx < 0 then 0 else lx,
        if ty < 0 then 0 else ty,
        if rx > img.width then img.width else rx,
        if bot > img.height then img.height else bot)
  }

  /** The box is empty: cropRGBA returns nil. */
  predicate EmptyBox(bx: Box) {
    bx.rx <= bx.lx || bx.bot <= bx.ty
  }

  /** The image copied out of a non-empty box. */
  function Cropped(img: Image, bx: Box): (dst: Image)
    requires img.Valid() && 0 <= bx.lx < bx.rx <= img.width && 0 <= bx.ty < bx.bot <= img.height
    ensures dst.Valid() && dst.width == bx.rx - bx.lx && dst.height == bx.bot - bx.ty
    ensures forall x: nat, y: nat | x < dst.width && y < dst.height ::
              PixelAt(dst, x, y) == PixelAt(img, bx.lx + x, bx.ty + y)
  {
    CropPixels(img, bx.lx, bx.rx, bx.ty, bx.bot - bx.ty);
    Image(bx.rx - bx.lx, bx.bot - bx.ty, Rows(img, bx.lx, bx.rx, bx.ty, bx.bot - bx.ty))
  }

  /** cropRGBA: `None` (Go's nil) exactly when the clamped box is empty;
      otherwise an image of the box's size whose every pixel is the source
      pixel at the same place inside the box. */
  function Crop(img: Image, vx: i32, vy: i32, l: i32, t: i32, r: i32, b: i32): (res: Option<Image>)
    requires img.Valid()
    ensures var bx := CropBox(img, vx, vy, l, t, r, b);
            (res.None? <==> EmptyBox(bx)) &&
            (res.Some? ==> res.value == Cropped(img, bx))
  {
    var bx := CropBox(img, vx, vy, l, t, r, b);
    if EmptyBox(bx) then None else Some(Cropped(img, bx))
  }

  lemma CropPixels(img: Image, lx: nat, rx: nat, ty: nat, n: nat)
    requires img.Valid() && lx <= rx <= img.width && ty + n <= img.height
    ensures var dst := Image(rx - lx, n, Rows(img, lx, rx, ty, n));
            dst.Valid() &&
            forall x: nat, y: nat | x < dst.width && y < dst.height :: PixelAt(dst, x, y) == PixelAt(img, lx + x, ty + y)
  {
    var dst := Image(rx - lx, n, Rows(img, lx, rx, ty, n));
    assert (rx - lx) * n * 4 == n * ((rx - lx) * 4);
    forall x: nat, y: nat | x < rx - lx && y < n
      ensures PixelAt(dst, x, y) == PixelAt(img, lx + x, ty + y)
    {
      CropPixel(img, lx, rx, ty, n, x, y);
    }
  }

  /** The row-copy loop of cropRGBA: one `copy` of (rx-lx)*4 bytes per row,
      starting at PixOffset(lx, y) of the source. */
  method CopyRows(img: Image, lx: nat, rx: nat, ty: nat, bot: nat) returns (dst: seq<byte>)
    requires img.Valid() && lx <= rx <= img.width && ty <= bot <= img.height
    ensures dst == Rows(img, lx, rx, ty, bot - ty)
  {
    dst := [];
    var y := ty;
    while y < bot
      invariant ty <= y <= bot
      invariant dst == Rows(img, lx, rx, ty, y - ty)
    {
      var srcOff := PixOffset(img, lx, y);
      RowCopy(img, y, lx, rx);
      dst := dst + img.pix[srcOff..srcOff + (rx - lx) * 4];
      y := y + 1;
    }
  }

  lemma RowCopy(img: Image, y: nat, lx: nat, rx: nat)
    requires img.Valid() && lx <= rx <= img.width && y < img.height
    ensures 0 <= PixOffset(img, lx, y) <= PixOffset(img, lx, y) + (rx - lx) * 4 <= |img.pix|
    ensures img.pix[PixOffset(img, lx, y)..PixOffset(img, lx, y) + (rx - lx) * 4] == RowBytes(img, y, lx, rx)
  {
    PixOffsetBounds(img, lx, y);
    PixOffsetBounds(img, rx, y);
  }

  /** cropRGBA: the int32 differences from the frame origin, clamped to the
      image, then the row copy. */
  method CropRGBA(img: Image, vx: i32, vy: i32, l: i32, t: i32, r: i32, b: i32) returns (res: Option<Image>)
    requires img.Valid()
    ensures res == Crop(img, vx, vy, l, t, r, b)
  {
    var lx: int := Wrap32(l - vx);
    var ty: int := Wrap32(t - vy);
    var rx: int := Wrap32(r - vx);
    var bot: int := Wrap32(b - vy);
    if lx < 0 {
      lx := 0;
    }
    if ty < 0 {
      ty := 0;
    }
    if rx > img.width {
      rx := img.width;
    }
    if bot > img.height {
      bot := img.height;
    }
    assert Box(lx, ty, rx, bot) == CropBox(img, vx, vy, l, t, r, b);
    if rx <= lx || bot <= ty {
      return None;
    }
    var dst := CopyRows(img, lx, rx, ty, bot);
    res := Some(Image(rx - lx, bot - ty, dst));
    assert res.value == Cropped(img, Box(lx, ty, rx, bot));
  }

  /** A rectangle lying inside the frame crops to exactly its own size, and
      pixel (x, y) of the crop is the frame pixel at (l - vx + x, t - vy + y). */
  lemma CropInsideFrame(img: Image, vx: i32, vy: i32, l: i32, t: i32, r: i32, b: i32)
    requires img.Valid() && img.width <= INT32_MAX && img.height <= INT32_MAX
    requires vx <= l < r <= vx + img.width && vy <= t < b <= vy + img.height
    ensures var res := Crop(img, vx, vy, l, t, r, b);
            res.Some? && res.value.width == r - l && res.value.height == b - t &&
            forall x: nat, y: nat | x < r - l && y < b - t ::
              PixelAt(res.value, x, y) == PixelAt(img, l - vx + x, t - vy + y)
  {
    var bx := CropBox(img, vx, vy, l, t, r, b);
    assert bx == Box(l - vx, t - vy, r - vx, b - vy);
  }
}

=== FILE: machine.dfy ===
/** Machine integer types of the Go program: `int32` coordinates with
    two's-complement wrap-around, pointer-sized unsigned words (`uintptr`)
    and bytes. Dafny integers are unbounded, so every place where the Go
    code can wrap applies `Wrap32` explicitly. */
module MachineInt {

  const INT32_MIN: int := -0x8000_0000
  const INT32_MAX: int := 0x7FFF_FFFF
  const TWO_32: int := 0x1_0000_0000
  const TWO_64: int := 0x1_0000_0000_0000_0000

  type i32 = x: int | -0x8000_0000 <= x <= 0x7FFF_FFFF
  type byte = x: int | 0 <= x < 0x100
  type uintptr = x: int | 0 <= x < 0x1_0000_0000_0000_0000

  predicate InInt32(x: int) {
    INT32_MIN <= x <= INT32_MAX
  }

  /** The int32 value Go produces for the mathematical result `x` of an
      int32 operation: `x` reduced modulo 2^32 into [INT32_MIN, INT32_MAX]. */
  function Wrap32(x: int): (r: i32)
    ensures (x - r) % TWO_32 == 0
    ensures InInt32(x) ==> r == x
  {
    var q := (x + 0x8000_0000) / TWO_32;
    assert x + 0x8000_0000 == q * TWO_32 + (x + 0x8000_0000) % TWO_32;
    assert x - ((x + 0x8000_0000) % TWO_32 - 0x8000_0000) == q * TWO_32;
    (x + 0x8000_0000) % TWO_32 - 0x8000_0000
  }

  /** Equal remainders modulo 2^32 and both in int32 range: the values agree.
      This is what makes `Wrap32` the unique int32 representative. */
  lemma {:induction false} Wrap32Unique(x: int, r: int)
    requires InInt32(r) && (x - r) % TWO_32 == 0
    ensures Wrap32(x) == r
  {
    var w := Wrap32(x);
    var d := w - r;
    assert (x - w) % TWO_32 == 0;
    assert d == (x - r) - (x - w);
    assert -TWO_32 < d < TWO_32;
    ModDiff(x - r, x - w);
    assert d % TWO_32 == 0;
  }

  lemma ModDiff(a: int, b: int)
    requires a % TWO_32 == 0 && b % TWO_32 == 0
    ensures (a - b) % TWO_32 == 0
  {
    assert a == (a / TWO_32) * TWO_32;
    assert b == (b / TWO_32) * TWO_32;
    assert a - b == (a / TWO_32 - b / TWO_32) * TWO_32;
  }
}

=== FILE: registry.dfy ===
/** The window-to-state registry. A window's GWLP_USERDATA slot holds a
    numeric id, never a pointer; the id indexes a process-wide map of
    session states. Ids come from an atomic counter that skips 0, because 0
    in the slot means "no state". The mutex around the map and the atomic
    counter only serialize these steps and are not modelled. */
module Registry {
  import opened MachineInt
  import opened Wrappers

  /** The counter, the id-to-state map, and the user-data slot of every
      window (a window never written to has 0 there). */
  datatype Registry<S> = Registry(next: uintptr, states: map<uintptr, S>, slots: map<uintptr, uintptr>)

  /** The registry at program start: Go's fresh map and zero counter. It is
      consistent and no window finds a state. */
  function Empty<S>(): (r: Registry<S>)
    ensures Valid(r) && r.next == 0
    ensures forall h :: Lookup(r, h) == None
  {
    Registry(0, map[], map[])
  }

  /** GetWindowLongPtrW(hwnd, GWLP_USERDATA), the slot at index
      `^uintptr(20)`, which Windows reads as the signed index -21. */
  function UserData<S>(reg: Registry<S>, hwnd: uintptr): uintptr {
    if hwnd in reg.slots then reg.slots[hwnd] else 0
  }

  /** allocStateID: add one with 64-bit wrap-around and add once more if the
      counter wrapped to 0. Returns the new counter and the id. */
  function AllocStateId(next: uintptr): (r: (uintptr, uintptr))
    ensures r.1 != 0 && r.0 == r.1
    ensures next + 1 < TWO_64 ==> r.1 == next + 1
    ensures next + 1 == TWO_64 ==> r.1 == 1
  {
    var id := (next + 1) % TWO_64;
    if id == 0 then ((id + 1) % TWO_64, (id + 1) % TWO_64) else (id, id)
  }

  /** The registry is consistent: every issued id is between 1 and the
      counter, every non-zero slot names a live state, and no two windows
      share an id. */
  ghost predicate Valid<S>(reg: Registry<S>) {
    (forall k | k in reg.states :: 0 < k <= reg.next) &&
    (forall h | h in reg.slots && reg.slots[h] != 0 :: reg.slots[h] in reg.states) &&
    (forall h1, h2 | h1 in reg.slots && h2 in reg.slots && reg.slots[h1] != 0 && reg.slots[h1] == reg.slots[h2] :: h1 == h2)
  }

  /** getStateFromHwnd: nil for a window whose slot is 0 and for an id the
      map no longer holds. */
  function Lookup<S>(reg: Registry<S>, hwnd: uintptr): (st: Option<S>)
    ensures st.Some? <==> UserData(reg, hwnd) != 0 && UserData(reg, hwnd) in reg.states
    ensures st.Some? ==> st.value == reg.states[UserData(reg, hwnd)]
  {
    var id := UserData(reg, hwnd);
    if id == 0 then None else if id in reg.states then Some(reg.states[id]) else None
  }

  /** attachState: store the state under a fresh id and write the id into
      the window's slot. */
  function Attach<S>(reg: Registry<S>, hwnd: uintptr, st: S): (r: Registry<S>)
    ensures Lookup(r, hwnd) == Some(st)
    ensures forall h | h != hwnd :: UserData(r, h) == UserData(reg, h)
    ensures r.next != 0 && r.next == UserData(r, hwnd)
  {
    var (next, id) := AllocStateId(reg.next);
    Registry(next, reg.states[id := st], reg.slots[hwnd := id])
  }

  /** detachState: nothing for a window whose slot is 0; otherwise drop the
      id from the map and clear the slot. */
  function Detach<S>(reg: Registry<S>, hwnd: uintptr): (r: Registry<S>)
    ensures Lookup(r, hwnd) == None && UserData(r, hwnd) == 0
    ensures UserData(reg, hwnd) == 0 ==> r == reg
    // otherwise the id leaves the map and the slot is cleared
    ensures UserData(reg, hwnd) != 0 ==>
              r.states == reg.states - {UserData(reg, hwnd)} && r.slots == reg.slots[hwnd := 0]
    ensures r.next == reg.next
    // detaching never adds or redirects an entry
    ensures forall h | Lookup(r, h).Some? :: Lookup(r, h) == Lookup(reg, h)
    ensures forall h | h != hwnd :: UserData(r, h) == UserData(reg, h)
  {
    var id := UserData(reg, hwnd);
    if id == 0 then reg
    else Registry(reg.next, reg.states - {id}, reg.slots[hwnd := 0])
  }

  /** Attaching to a window that has no state yet keeps the registry
      consistent as long as the 64-bit counter does not wrap, and leaves
      every other window's state where it was. */
  lemma AttachValid<S>(reg: Registry<S>, hwnd: uintptr, st: S)
    requires Valid(reg) && UserData(reg, hwnd) == 0 && reg.next + 1 < TWO_64
    ensures Valid(Attach(reg, hwnd, st))
    ensures forall h | h != hwnd :: Lookup(Attach(reg, hwnd, st), h) == Lookup(reg, h)
  {
    var r := Attach(reg, hwnd, st);
    var id := reg.next + 1;
    assert id !in reg.states;
    forall h | h != hwnd
      ensures Lookup(r, h) == Lookup(reg, h)
    {
      if UserData(reg, h) != 0 {
        assert UserData(reg, h) in reg.states;
      }
    }
  }

  /** Detaching keeps the registry consistent and leaves every other
      window's state where it was. */
  lemma DetachValid<S>(reg: Registry<S>, hwnd: uintptr)
    requires Valid(reg)
    ensures Valid(Detach(reg, hwnd))
    ensures forall h | h != hwnd :: Lookup(Detach(reg, hwnd), h) == Lookup(reg, h)
  {
  }

  /** A second detach (the destroy handler runs once per window, but the
      slot is cleared anyway) changes nothing. */
  lemma DetachIdempotent<S>(reg: Registry<S>, hwnd: uintptr)
    ensures Detach(Detach(reg, hwnd), hwnd) == Detach(reg, hwnd)
  {
  }
}

=== FILE: render.dfy ===
/** The geometry of one WM_PAINT of the selection overlay: which rectangles
    are blended with black, where the border is drawn and where the frame
    ends up. The GDI calls themselves are outside the model; a painting is
    the list of what they would be asked to do. */
module Render {
  import opened MachineInt
  import opened Geometry
  import opened Selection

  /** Blend factor of the dim layer (about 18% black). */
  const DIM_ALPHA: byte := 46

  /** A cursor position on the virtual screen. */
  predicate OnScreen(v: View, p: Point) {
    v.vx <= p.x < v.vx + v.vw && v.vy <= p.y < v.vy + v.vh
  }

  function Min(a: int, b: int): int { if a < b then a else b }
  function Max(a: int, b: int): int { if a < b then b else a }

  /** The selection in frame coordinates: the drag endpoints shifted by the
      frame origin in int32 arithmetic, normalized, then clamped to the frame. */
  function SelectionInFrame(v: View, d: Drag): (sel: Rect)
    ensures 0 <= sel.left && 0 <= sel.top && sel.right <= v.vw && sel.bottom <= v.vh
    ensures InInt32(sel.left) && InInt32(sel.top) && InInt32(sel.right) && InInt32(sel.bottom)
  {
    var rc := RectNorm(Wrap32(d.anchor.x - v.vx), Wrap32(d.anchor.y - v.vy),
                       Wrap32(d.current.x - v.vx), Wrap32(d.current.y - v.vy));
    Rect(Max(rc.left, 0), Max(rc.top, 0), Min(rc.right, v.vw), Min(rc.bottom, v.vh))
  }

  /** For cursor points on the screen neither the int32 shift nor the clamp
      changes anything: the frame selection is the drag rectangle moved by
      the frame origin. */
  lemma SelectionOnScreen(v: View, d: Drag)
    requires OnScreen(v, d.anchor) && OnScreen(v, d.current)
    ensures var sel := SelectionInFrame(v, d);
            sel == Rect(Span(d).left - v.vx, Span(d).top - v.vy, Span(d).right - v.vx, Span(d).bottom - v.vy) &&
            sel.Normalized() && 0 <= sel.left && sel.right <= v.vw && 0 <= sel.top && sel.bottom <= v.vh
  {
    ShiftExact(d.anchor.x, v.vx, v.vw);
    ShiftExact(d.anchor.y, v.vy, v.vh);
    ShiftExact(d.current.x, v.vx, v.vw);
    ShiftExact(d.current.y, v.vy, v.vh);
  }

  /** An on-screen coordinate minus the frame origin does not wrap. */
  lemma ShiftExact(p: i32, origin: i32, extent: i32)
    requires origin <= p < origin + extent
    ensures Wrap32(p - origin) == p - origin
  {
  }


  /** A frame pixel is in the frame selection exactly when the desktop pixel
      it shows lies between the two drag endpoints. */
  lemma SelectionContains(v: View, d: Drag, x: int, y: int)
    requires OnScreen(v, d.anchor) && OnScreen(v, d.current)
    ensures SelectionInFrame(v, d).Contains(x, y) <==> Span(d).Contains(x + v.vx, y + v.vy)
  {
    SelectionOnScreen(v, d);
  }

  /** alphaFillRectFromBlack1x1: nothing is blended when there is no black
      source or when the rectangle's int32 width or height is not positive. */
  function AlphaFill(rc: Rect, blackDC: uintptr): (fill: seq<Rect>)
    ensures |fill| <= 1 && (|fill| == 1 ==> fill[0] == rc)
    ensures blackDC == 0 ==> fill == []
    ensures InInt32(rc.right - rc.left) && InInt32(rc.bottom - rc.top) && blackDC != 0 ==>
      (fill == [rc] <==> rc.left < rc.right && rc.top < rc.bottom)
  {
    var w := Wrap32(rc.right - rc.left);
    var h := Wrap32(rc.bottom - rc.top);
    if w <= 0 || h <= 0 || blackDC == 0 then [] else [rc]
  }

  /** The rectangles paint asks to dim: the whole frame before the first
      drag, otherwise the four bands around the selection. */
  function DimRects(v: View, d: Drag, sel: Rect): (rs: seq<Rect>)
    ensures !d.dragging && d.anchor == d.current ==> rs == [Rect(0, 0, v.vw, v.vh)]
    // otherwise: above, below, left of and right of the selection
    ensures d.dragging || d.anchor != d.current ==>
      |rs| == 4 && rs[0].bottom == rs[2].top == rs[3].top == sel.top &&
      rs[1].top == rs[2].bottom == rs[3].bottom == sel.bottom &&
      rs[2].right == sel.left && rs[3].left == sel.right &&
      rs[0].left == rs[1].left == rs[2].left == 0 && rs[0].right == rs[1].right == rs[3].right == v.vw &&
      rs[0].top == 0 && rs[1].bottom == v.vh
  {
    if !d.dragging && d.anchor == d.current then
      [Rect(0, 0, v.vw, v.vh)]
    else
      [Rect(0, 0, v.vw, sel.top),
       Rect(0, sel.bottom, v.vw, v.vh),
       Rect(0, sel.top, sel.left, sel.bottom),
       Rect(sel.right, sel.top, v.vw, sel.bottom)]
  }

  /** The blends actually performed for a list of requested rectangles. */
  function Fills(rs: seq<Rect>, blackDC: uintptr): (fs: seq<Rect>)
    ensures |fs| <= |rs|
    ensures forall i | 0 <= i < |fs| :: fs[i] in rs
    ensures blackDC == 0 ==> fs == []
    decreases |rs|
  {
    if |rs| == 0 then [] else AlphaFill(rs[0], blackDC) + Fills(rs[1..], blackDC)
  }

  /** drawBorder: the closed polyline through the four corners, clockwise
      from the top-left; nothing when the pen could not be created. */
  function BorderPath(pen: uintptr, rc: Rect): (path: seq<(int, int)>)
    ensures pen == 0 ==> path == []
    ensures pen != 0 ==> |path| == 5 && path[0] == path[4] == (rc.left, rc.top)
    ensures pen != 0 ==> forall i | 0 <= i < 4 :: path[i].0 == path[i + 1].0 || path[i].1 == path[i + 1].1
    ensures pen != 0 ==>
      multiset(path[..4]) == multiset{(rc.left, rc.top), (rc.right, rc.top), (rc.right, rc.bottom), (rc.left, rc.bottom)}
  {
    if pen == 0 then []
    else
      var path := [(rc.left, rc.top), (rc.right, rc.top), (rc.right, rc.bottom), (rc.left, rc.bottom), (rc.left, rc.top)];
      assert path[..4] == [(rc.left, rc.top), (rc.right, rc.top), (rc.right, rc.bottom), (rc.left, rc.bottom)];
      path
  }

  /** What one paint does: the surface drawn to, the blends, the border
      outline, and whether the back buffer is copied to the window. */
  datatype Painting = Painting(target: uintptr, fills: seq<Rect>, border: seq<(int, int)>, present: bool)

  /** paint after BeginPaint returned hdc and the buffers were ensured. */
  function Paint(v: View, d: Drag, hdc: uintptr, backDC: uintptr, blackDC: uintptr, pen: uintptr): (p: Painting)
    ensures p.target == (if backDC != 0 then backDC else hdc)
    // whatever is drawn reaches the window: either directly, or by the final copy
    ensures p.target == hdc || p.present
    ensures p.present ==> p.target == backDC && backDC != hdc
    ensures blackDC == 0 ==> p.fills == []
    ensures p.border != [] ==> pen != 0 && (d.dragging || d.anchor != d.current)
  {
    var dst := if backDC == 0 then hdc else backDC;
    var sel := SelectionInFrame(v, d);
    Painting(dst, Fills(DimRects(v, d, sel), blackDC), Outline(d, sel, pen), dst != hdc && backDC != 0)
  }

  /** The border part of paint: only once a drag has started, and only
      around a selection whose int32 width and height are at least 1. */
  function Outline(d: Drag, sel: Rect, pen: uintptr): (path: seq<(int, int)>)
    ensures path != [] ==> pen != 0 && (d.dragging || d.anchor != d.current)
    ensures path != [] ==> path == BorderPath(pen, sel)
  {
    if !(!d.dragging && d.anchor == d.current)
       && Wrap32(sel.right - sel.left) >= 1 && Wrap32(sel.bottom - sel.top) >= 1
    then BorderPath(pen, sel) else []
  }

  /** How many of the rectangles blend the frame pixel (x, y). */
  function Coverage(rs: seq<Rect>, x: int, y: int): nat
    decreases |rs|
  {
    if |rs| == 0 then 0 else (if rs[0].Contains(x, y) then 1 else 0) + Coverage(rs[1..], x, y)
  }

  lemma {:induction false} CoverageAppend(a: seq<Rect>, b: seq<Rect>, x: int, y: int)
    ensures Coverage(a + b, x, y) == Coverage(a, x, y) + Coverage(b, x, y)
    decreases |a|
  {
    if |a| == 0 {
      assert a + b == b;
    } else {
      assert (a + b)[1..] == a[1..] + b;
      CoverageAppend(a[1..], b, x, y);
    }
  }

  /** A rectangle whose int32 size is exact is blended exactly over its pixels. */
  lemma AlphaFillCoverage(rc: Rect, blackDC: uintptr, x: int, y: int)
    requires blackDC != 0 && InInt32(rc.right - rc.left) && InInt32(rc.bottom - rc.top)
    ensures Coverage(AlphaFill(rc, blackDC), x, y) == if rc.Contains(x, y) then 1 else 0
  {
    if AlphaFill(rc, blackDC) == [] {
      assert !(rc.left < rc.right && rc.top < rc.bottom);
    } else {
      assert AlphaFill(rc, blackDC) == [rc];
    }
  }

  /** Coverage of four rectangles, one at a time. */
  lemma CoverageOfFour(a: Rect, b: Rect, c: Rect, d: Rect, x: int, y: int)
    ensures Coverage([a, b, c, d], x, y) ==
            (if a.Contains(x, y) then 1 else 0) + (if b.Contains(x, y) then 1 else 0) +
            (if c.Contains(x, y) then 1 else 0) + (if d.Contains(x, y) then 1 else 0)
  {
    assert [d][1..] == [] && Coverage([d], x, y) == (if d.Contains(x, y) then 1 else 0);
    assert [c, d][1..] == [d];
    assert Coverage([c, d], x, y) == (if c.Contains(x, y) then 1 else 0) + Coverage([d], x, y);
    assert [b, c, d][1..] == [c, d];
    assert Coverage([b, c, d], x, y) == (if b.Contains(x, y) then 1 else 0) + Coverage([c, d], x, y);
    assert [a, b, c, d][1..] == [b, c, d];
  }

  /** A frame pixel outside the selection lies in exactly one band, one
      inside it in none. */
  lemma BandsPartition(v: View, sel: Rect, x: int, y: int)
    requires 0 <= sel.left <= sel.right <= v.vw && 0 <= sel.top <= sel.bottom <= v.vh
    requires 0 <= x < v.vw && 0 <= y < v.vh
    ensures (if Rect(0, 0, v.vw, sel.top).Contains(x, y) then 1 else 0) +
            (if Rect(0, sel.bottom, v.vw, v.vh).Contains(x, y) then 1 else 0) +
            (if Rect(0, sel.top, sel.left, sel.bottom).Contains(x, y) then 1 else 0) +
            (if Rect(sel.right, sel.top, v.vw, sel.bottom).Contains(x, y) then 1 else 0) ==
            if sel.Contains(x, y) then 0 else 1
  {
  }

  /** The four bands around a selection inside the frame. */
  lemma BandsCoverage(v: View, sel: Rect, blackDC: uintptr, x: int, y: int)
    requires blackDC != 0
    requires 0 <= sel.left <= sel.right <= v.vw && 0 <= sel.top <= sel.bottom <= v.vh
    requires 0 <= x < v.vw && 0 <= y < v.vh
    ensures var rs := [Rect(0, 0, v.vw, sel.top), Rect(0, sel.bottom, v.vw, v.vh),
                       Rect(0, sel.top, sel.left, sel.bottom), Rect(sel.right, sel.top, v.vw, sel.bottom)];
            Coverage(Fills(rs, blackDC), x, y) == if sel.Contains(x, y) then 0 else 1
  {
    var rs := [Rect(0, 0, v.vw, sel.top), Rect(0, sel.bottom, v.vw, v.vh),
               Rect(0, sel.top, sel.left, sel.bottom), Rect(sel.right, sel.top, v.vw, sel.bottom)];
    FillsCoverage(rs, blackDC, x, y);
    CoverageOfFour(rs[0], rs[1], rs[2], rs[3], x, y);
    BandsPartition(v, sel, x, y);
  }

  /** With every rectangle of exact int32 size, the blends cover a pixel as
      often as the requested rectangles do. */
  lemma {:induction false} FillsCoverage(rs: seq<Rect>, blackDC: uintptr, x: int, y: int)
    requires blackDC != 0
    requires forall i | 0 <= i < |rs| :: InInt32(rs[i].right - rs[i].left) && InInt32(rs[i].bottom - rs[i].top)
    ensures Coverage(Fills(rs, blackDC), x, y) == Coverage(rs, x, y)
    decreases |rs|
  {
    if |rs| > 0 {
      CoverageAppend(AlphaFill(rs[0], blackDC), Fills(rs[1..], blackDC), x, y);
      AlphaFillCoverage(rs[0], blackDC, x, y);
      FillsCoverage(rs[1..], blackDC, x, y);
    }
  }

  /** The dim layer: while both cursor points are on the screen, every frame
      pixel outside the selection is blended exactly once and every pixel
      inside it is left untouched, so the selection shows the captured image
      at full brightness and nothing is dimmed twice. */
  lemma {:induction false} PaintDimsOutsideSelection(v: View, d: Drag, hdc: uintptr, backDC: uintptr, blackDC: uintptr, pen: uintptr, x: int, y: int)
    requires OnScreen(v, d.anchor) && OnScreen(v, d.current) && blackDC != 0
    requires 0 <= x < v.vw && 0 <= y < v.vh
    ensures var p := Paint(v, d, hdc, backDC, blackDC, pen);
            Coverage(p.fills, x, y) == if Span(d).Contains(x + v.vx, y + v.vy) then 0 else 1
  {
    var sel := SelectionInFrame(v, d);
    SelectionOnScreen(v, d);
    SelectionContains(v, d, x, y);
    if !d.dragging && d.anchor == d.current {
      var rs := [Rect(0, 0, v.vw, v.vh)];
      FillsCoverage(rs, blackDC, x, y);
      assert !Span(d).Contains(x + v.vx, y + v.vy);
    } else {
      BandsCoverage(v, sel, blackDC, x, y);
    }
  }

  /** For a normalized selection inside the frame, the outline is drawn
      exactly when a drag has started, the selection covers a pixel and the
      pen exists. */
  lemma OutlineIff(v: View, d: Drag, sel: Rect, pen: uintptr)
    requires 0 <= sel.left <= sel.right <= v.vw && 0 <= sel.top <= sel.bottom <= v.vh
    ensures var path := Outline(d, sel, pen);
            (path != [] <==> pen != 0 && (d.dragging || d.anchor != d.current) &&
                             sel.left < sel.right && sel.top < sel.bottom) &&
            (path != [] ==> path[0] == (sel.left, sel.top))
  {
    assert Wrap32(sel.right - sel.left) == sel.right - sel.left;
    assert Wrap32(sel.bottom - sel.top) == sel.bottom - sel.top;
  }

  /** The border is drawn exactly when a drag has started, the selection
      covers at least one pixel and the pen exists. */
  lemma BorderIff(v: View, d: Drag, hdc: uintptr, backDC: uintptr, blackDC: uintptr, pen: uintptr)
    requires OnScreen(v, d.anchor) && OnScreen(v, d.current)
    ensures var p := Paint(v, d, hdc, backDC, blackDC, pen);
            var sel := SelectionInFrame(v, d);
            (p.border != [] <==> pen != 0 && (d.dragging || d.anchor != d.current) &&
                                 sel.left < sel.right && sel.top < sel.bottom) &&
            (p.border != [] ==> p.border[0] == (sel.left, sel.top))
  {
    var sel := SelectionInFrame(v, d);
    assert Paint(v, d, hdc, backDC, blackDC, pen).border == Outline(d, sel, pen);
    SelectionOnScreen(v, d);
    OutlineIff(v, d, sel, pen);
  }

  /** Dragging from (100,100) to (400,300) on a 1920x1080 screen at the origin
      dims four bands and outlines the 300x200 selection. */
  lemma FullHdDrag(hdc: uintptr, backDC: uintptr, blackDC: uintptr, pen: uintptr)
    requires blackDC != 0 && pen != 0
    ensures var d := Drag(true, Point(100, 100), Point(400, 300), false, false);
            var p := Paint(View(0, 0, 1920, 1080), d, hdc, backDC, blackDC, pen);
            p.fills == [Rect(0, 0, 1920, 100), Rect(0, 300, 1920, 1080), Rect(0, 100, 100, 300), Rect(400, 100, 1920, 300)] &&
            p.border == [(100, 100), (400, 100), (400, 300), (100, 300), (100, 100)]
  {
    var v := View(0, 0, 1920, 1080);
    var d := Drag(true, Point(100, 100), Point(400, 300), false, false);
    var sel := SelectionInFrame(v, d);
    assert sel == Rect(100, 100, 400, 300);
    var rs := DimRects(v, d, sel);
    assert rs == [Rect(0, 0, 1920, 100), Rect(0, 300, 1920, 1080), Rect(0, 100, 100, 300), Rect(400, 100, 1920, 300)];
    assert rs[3..] == [rs[3]];
    assert Fills(rs[3..], blackDC) == [rs[3]];
    assert Fills(rs[2..], blackDC) == rs[2..];
    assert Fills(rs[1..], blackDC) == rs[1..];
    assert Fills(rs, blackDC) == rs;
  }
}

=== FILE: resources.dfy ===
/** The overlay's session-scoped drawing resources: a back buffer (memory DC
    plus a bitmap the size of the virtual screen) and a cached 1x1 black
    source for alpha blending. `ensureBuffers` creates whichever is missing,
    `freeBuffers` releases both. Handles are opaque words; 0 is "none". */
module Resources {
  import opened MachineInt

  /** One resource: its DC, its bitmap, and the object the bitmap replaced
      in the DC (restored before deletion). */
  datatype Slot = Slot(dc: uintptr, bmp: uintptr, prev: uintptr) {
    /** A DC is held exactly when its bitmap is. */
    predicate Paired() {
      dc != 0 <==> bmp != 0
    }
  }

  const NoSlot := Slot(0, 0, 0)

  /** The six handles of the session state: backDC/backBmp/backOld and
      blackDC/blackBmp/blackOld. */
  datatype Buffers = Buffers(back: Slot, black: Slot) {
    predicate Paired() {
      back.Paired() && black.Paired()
    }
  }

  const NoBuffers := Buffers(NoSlot, NoSlot)

  /** What CreateCompatibleDC, CreateCompatibleBitmap and SelectObject
      returned when one resource was being created. */
  datatype Alloc = Alloc(dc: uintptr, bmp: uintptr, prev: uintptr)

  /** A release call issued to GDI. */
  datatype Release =
    | Reselect(dc: uintptr, obj: uintptr)
    | DeleteObject(obj: uintptr)
    | DeleteDC(dc: uintptr)

  function NonZero(h: uintptr): multiset<uintptr> {
    if h == 0 then multiset{} else multiset{h}
  }

  /** The DC and bitmap a slot owns. */
  function SlotOwned(s: Slot): multiset<uintptr> {
    NonZero(s.dc) + NonZero(s.bmp)
  }

  function Owned(b: Buffers): multiset<uintptr> {
    SlotOwned(b.back) + SlotOwned(b.black)
  }

  /** The handle a release call destroys, if any. */
  function DeletedBy(r: Release): multiset<uintptr> {
    match r
    case Reselect(_, _) => multiset{}
    case DeleteObject(h) => NonZero(h)
    case DeleteDC(h) => NonZero(h)
  }

  /** Handles destroyed by a sequence of release calls. */
  function Deleted(rs: seq<Release>): multiset<uintptr> {
    if |rs| == 0 then multiset{} else DeletedBy(rs[0]) + Deleted(rs[1..])
  }

  lemma {:induction false} DeletedAppend(a: seq<Release>, b: seq<Release>)
    ensures Deleted(a + b) == Deleted(a) + Deleted(b)
    decreases |a|
  {
    if |a| == 0 {
      assert a + b == b;
    } else {
      assert (a + b)[0] == a[0];
      assert (a + b)[1..] == a[1..] + b;
      DeletedAppend(a[1..], b);
    }
  }

  /** Handles the native calls hand out for an empty slot: a DC, and a
      bitmap only once that DC exists. A held slot makes no calls. */
  function SlotAcquired(s: Slot, a: Alloc): multiset<uintptr> {
    if s.dc != 0 then multiset{}
    else if a.dc == 0 then multiset{}
    else NonZero(a.dc) + NonZero(a.bmp)
  }

  function Acquired(b: Buffers, back: Alloc, black: Alloc): multiset<uintptr> {
    SlotAcquired(b.back, back) + SlotAcquired(b.black, black)
  }

  /** One resource of ensureBuffers: keep it if held; otherwise adopt a new
      DC and bitmap, or delete a DC whose bitmap could not be created. */
  function EnsureSlot(s: Slot, a: Alloc): (r: (Slot, seq<Release>))
    ensures s.Paired() ==> r.0.Paired()
    ensures s.dc != 0 ==> r == (s, [])
    ensures r.0.dc != 0 <==> s.dc != 0 || (a.dc != 0 && a.bmp != 0)
  {
    if s.dc != 0 then (s, [])
    else if a.dc == 0 then (s, [])
    else if a.bmp != 0 then (Slot(a.dc, a.bmp, a.prev), [])
    else (s, [DeleteDC(a.dc)])
  }

  /** A slot's handles are conserved: what it owns afterwards plus what was
      deleted is what it owned before plus what the native calls returned. */
  lemma EnsureSlotConserves(s: Slot, a: Alloc)
    requires s.Paired()
    ensures var r := EnsureSlot(s, a);
            SlotOwned(r.0) + Deleted(r.1) == SlotOwned(s) + SlotAcquired(s, a)
  {
    if s.dc == 0 && a.dc != 0 && a.bmp == 0 {
      assert Deleted([DeleteDC(a.dc)]) == NonZero(a.dc);
    }
  }

  /** ensureBuffers: create the back buffer and the black source if missing.
      What is held is never recreated. */
  function EnsureBuffers(b: Buffers, back: Alloc, black: Alloc): (r: (Buffers, seq<Release>))
    ensures b.Paired() ==> r.0.Paired()
    ensures b.back.dc != 0 ==> r.0.back == b.back
    ensures b.black.dc != 0 ==> r.0.black == b.black
    ensures r.0.back.dc != 0 <==> b.back.dc != 0 || (back.dc != 0 && back.bmp != 0)
    ensures r.0.black.dc != 0 <==> b.black.dc != 0 || (black.dc != 0 && black.bmp != 0)
  {
    if b.back.dc != 0 && b.black.dc != 0 then (b, [])
    else
      var (k, rel1) := EnsureSlot(b.back, back);
      var (s, rel2) := EnsureSlot(b.black, black);
      (Buffers(k, s), rel1 + rel2)
  }

  /** Every handle the native calls hand out to ensureBuffers ends up either
      owned by the session or deleted at once, and nothing owned is lost. */
  lemma EnsureBuffersConserves(b: Buffers, back: Alloc, black: Alloc)
    requires b.Paired()
    ensures var r := EnsureBuffers(b, back, black);
            Owned(r.0) + Deleted(r.1) == Owned(b) + Acquired(b, back, black)
  {
    if !(b.back.dc != 0 && b.black.dc != 0) {
      var (k, rel1) := EnsureSlot(b.back, back);
      var (s, rel2) := EnsureSlot(b.black, black);
      EnsureSlotConserves(b.back, back);
      EnsureSlotConserves(b.black, black);
      DeletedAppend(rel1, rel2);
      var ok, os, d1, d2 := SlotOwned(k), SlotOwned(s), Deleted(rel1), Deleted(rel2);
      assert ok + d1 == SlotOwned(b.back) + SlotAcquired(b.back, back);
      assert os + d2 == SlotOwned(b.black) + SlotAcquired(b.black, black);
      SumOfSlots(ok, os, d1, d2);
      SumOfSlots(SlotOwned(b.back), SlotOwned(b.black), SlotAcquired(b.back, back), SlotAcquired(b.black, black));
    }
  }

  /** Regrouping four multisets: what the per-slot facts need. */
  lemma SumOfSlots(a: multiset<uintptr>, b: multiset<uintptr>, c: multiset<uintptr>, d: multiset<uintptr>)
    ensures (a + b) + (c + d) == (a + c) + (b + d)
  {
    assert forall h :: ((a + b) + (c + d))[h] == ((a + c) + (b + d))[h];
  }

  /** Release one resource: restore the DC's previous object, delete the
      bitmap, delete the DC. */
  function FreeSlot(s: Slot): (r: (Slot, seq<Release>))
    ensures r.0 == NoSlot
    ensures s.dc == 0 <==> r.1 == []
  {
    if s.dc == 0 then (NoSlot, [])
    else (NoSlot, [Reselect(s.dc, s.prev), DeleteObject(s.bmp), DeleteDC(s.dc)])
  }

  /** Freeing a slot deletes exactly the handles it owns. */
  lemma FreeSlotReleases(s: Slot)
    requires s.Paired()
    ensures Deleted(FreeSlot(s).1) == SlotOwned(s)
  {
    if s.dc != 0 {
      var rel := FreeSlot(s).1;
      assert Deleted(rel) == NonZero(s.bmp) + Deleted(rel[2..]);
    }
  }

  /** freeBuffers: release whichever resources are present and zero all six
      handles. */
  function FreeBuffers(b: Buffers): (r: (Buffers, seq<Release>))
    ensures r.0 == NoBuffers
    ensures b == NoBuffers ==> r.1 == []
  {
    var (k, rel1) := FreeSlot(b.back);
    var (s, rel2) := FreeSlot(b.black);
    (NoBuffers, rel1 + rel2)
  }

  /** freeBuffers deletes exactly the handles the session owns. */
  lemma FreeBuffersReleases(b: Buffers)
    requires b.Paired()
    ensures Deleted(FreeBuffers(b).1) == Owned(b)
  {
    FreeSlotReleases(b.back);
    FreeSlotReleases(b.black);
    DeletedAppend(FreeSlot(b.back).1, FreeSlot(b.black).1);
  }

  /** Freeing twice is harmless: the second call releases nothing. */
  lemma FreeBuffersIdempotent(b: Buffers)
    ensures FreeBuffers(FreeBuffers(b).0) == (NoBuffers, [])
  {
  }

  /** A whole session: any number of repaints, each running ensureBuffers with
      whatever the native calls return, then the window teardown. Yields the
      final buffers, the handles acquired and the release calls made. */
  function Lifetime(b: Buffers, paints: seq<(Alloc, Alloc)>): (Buffers, multiset<uintptr>, seq<Release>)
    decreases |paints|
  {
    if |paints| == 0 then
      var (f, rel) := FreeBuffers(b);
      (f, multiset{}, rel)
    else
      var (b1, rel1) := EnsureBuffers(b, paints[0].0, paints[0].1);
      var (f, acq, rel2) := Lifetime(b1, paints[1..]);
      (f, Acquired(b, paints[0].0, paints[0].1) + acq, rel1 + rel2)
  }

  /** Every handle a session acquires is deleted exactly once by the time the
      window is torn down, whatever the paint outcomes were. */
  lemma {:induction false} LifetimeReleasesEverything(b: Buffers, paints: seq<(Alloc, Alloc)>)
    requires b.Paired()
    ensures var (f, acq, rel) := Lifetime(b, paints);
            f == NoBuffers && Deleted(rel) == Owned(b) + acq
    decreases |paints|
  {
    if |paints| == 0 {
      FreeBuffersReleases(b);
    } else {
      var (b1, rel1) := EnsureBuffers(b, paints[0].0, paints[0].1);
      EnsureBuffersConserves(b, paints[0].0, paints[0].1);
      LifetimeReleasesEverything(b1, paints[1..]);
      var (f, acq, rel2) := Lifetime(b1, paints[1..]);
      DeletedAppend(rel1, rel2);
      var acq1 := Acquired(b, paints[0].0, paints[0].1);
      assert Owned(b1) + Deleted(rel1) == Owned(b) + acq1;
      assert Deleted(rel2) == Owned(b1) + acq;
      Regroup(Deleted(rel1), Owned(b1), acq, Owned(b), acq1);
    }
  }

  lemma Regroup(d1: multiset<uintptr>, o1: multiset<uintptr>, acq: multiset<uintptr>, o: multiset<uintptr>, acq1: multiset<uintptr>)
    requires o1 + d1 == o + acq1
    ensures d1 + (o1 + acq) == o + (acq1 + acq)
  {
    assert forall h :: (d1 + (o1 + acq))[h] == (o1 + d1)[h] + acq[h];
  }
}

=== FILE: selection.dfy ===
/** The drag state machine of the selection overlay (the pointer and key
    branches of `selectionWndProc`). The cursor position that the handler
    reads with GetCursorPos travels with each input. */
module Selection {
  import opened MachineInt
  import opened Geometry

  const VK_ESCAPE: uintptr := 0x1B

  /** A selection narrower or shorter than this many pixels is a cancel. */
  const MIN_SIDE: int := 3

  /** The drag part of the session state: the dragging flag, the anchor
      (x1, y1) and current (x2, y2) points, and the terminal flags. */
  datatype Drag = Drag(dragging: bool, anchor: Point, current: Point, done: bool, canceled: bool)

  /** The session state as runSelectionWindow creates it: Go zero values. */
  const Idle := Drag(false, Point(0, 0), Point(0, 0), false, false)

  /** WM_LBUTTONDOWN, WM_MOUSEMOVE and WM_LBUTTONUP with the cursor position,
      and WM_KEYDOWN with its virtual-key code. */
  datatype Input =
    | ButtonDown(cursor: Point)
    | Move(cursor: Point)
    | ButtonUp(cursor: Point)
    | KeyDown(vk: uintptr)

  /** The side effects of handling an input: whether the handler consumed it
      (returned 0) or passed it to DefWindowProc, and the native calls it made. */
  datatype Reaction = Reaction(handled: bool, repaint: bool, grab: bool, release: bool, destroy: bool)

  const PassOn := Reaction(false, false, false, false, false)

  /** The rectangle spanned by the anchor and the current point. */
  function Span(d: Drag): Rect {
    RectNorm(d.anchor.x, d.anchor.y, d.current.x, d.current.y)
  }

  /** Both sides of a normalized rectangle are at least MIN_SIDE pixels and
      fit in int32. */
  predicate LargeEnough(rc: Rect) {
    MIN_SIDE <= rc.right - rc.left <= INT32_MAX && MIN_SIDE <= rc.bottom - rc.top <= INT32_MAX
  }

  /** The release test `w < 3 || h < 3` on the int32 size of the normalized
      rectangle rejects exactly the rectangles that are not LargeEnough. */
  lemma TooSmallIff(d: Drag)
    ensures var rc := Span(d);
            var s := RectWH(rc.left, rc.top, rc.right, rc.bottom);
            (s.w < MIN_SIDE || s.h < MIN_SIDE) <==> !LargeEnough(rc)
  {
  }

  function Step(d: Drag, e: Input): (r: (Drag, Reaction))
    // button-down: start a drag at the cursor, grab the mouse, repaint
    ensures e.ButtonDown? ==>
      r.0 == d.(dragging := true, anchor := e.cursor, current := e.cursor) &&
      r.1 == Reaction(true, true, true, false, false)
    // a move only matters while dragging, and repaints only when the point changed
    ensures e.Move? && !d.dragging ==> r == (d, PassOn)
    ensures e.Move? && d.dragging ==>
      r.0 == d.(current := e.cursor) && r.1.handled && (r.1.repaint <==> e.cursor != d.current) &&
      !r.1.destroy && !r.1.grab && !r.1.release
    // button-up ends a drag: done, not dragging, canceled iff the rectangle is too small
    ensures e.ButtonUp? && !d.dragging ==> r == (d, PassOn)
    ensures e.ButtonUp? && d.dragging ==>
      !r.0.dragging && r.0.done && r.0.anchor == d.anchor && r.0.current == e.cursor &&
      (r.0.canceled <==> d.canceled || !LargeEnough(Span(r.0))) &&
      r.1 == Reaction(true, false, false, true, true)
    // Esc cancels from any state; other keys go to DefWindowProc
    ensures e.KeyDown? && e.vk == VK_ESCAPE ==>
      r.0 == d.(canceled := true, done := true) && r.1 == Reaction(true, false, false, false, true)
    ensures e.KeyDown? && e.vk != VK_ESCAPE ==> r == (d, PassOn)
  {
    match e
    case ButtonDown(p) =>
      (d.(dragging := true, anchor := p, current := p), Reaction(true, true, true, false, false))
    case Move(p) =>
      if !d.dragging then (d, PassOn)
      else if p != d.current then (d.(current := p), Reaction(true, true, false, false, false))
      else (d, Reaction(true, false, false, false, false))
    case ButtonUp(p) =>
      if !d.dragging then (d, PassOn)
      else
        var up := d.(dragging := false, current := p);
        var rc := Span(up);
        var s := RectWH(rc.left, rc.top, rc.right, rc.bottom);
        TooSmallIff(up);
        (up.(canceled := d.canceled || s.w < MIN_SIDE || s.h < MIN_SIDE, done := true),
         Reaction(true, false, false, true, true))
    case KeyDown(vk) =>
      if vk == VK_ESCAPE then (d.(canceled := true, done := true), Reaction(true, false, false, false, true))
      else (d, PassOn)
  }

  /** What runSelectionWindow reports once the loop ends. */
  datatype Outcome = Canceled | Selected(rect: Rect)

  /** The state a finished session may be in: a session that ended without
      being canceled spans a large enough rectangle. */
  predicate Settled(d: Drag) {
    d.done && !d.canceled ==> LargeEnough(Span(d))
  }

  /** runSelectionWindow's result: canceled, or the normalized rectangle. */
  function Result(d: Drag): (o: Outcome)
    requires d.done && Settled(d)
    ensures o.Selected? ==> o.rect.Normalized() && o.rect.Fits32() && LargeEnough(o.rect)
    // the reported rectangle is the one between the two drag endpoints
    ensures o.Selected? ==> o.rect == Span(d)
    ensures o.Canceled? <==> d.canceled
  {
    if d.canceled then Canceled else Selected(Span(d))
  }

  /** The polling loop seen from the drag alone: feed inputs until the
      session is done or the inputs run out (Window.PumpFeeds relates it to
      the loop over the whole window world). */
  function Feed(d: Drag, inputs: seq<Input>): Drag
    decreases |inputs|
  {
    if d.done || |inputs| == 0 then d else Feed(Step(d, inputs[0]).0, inputs[1..])
  }

  /** Every session that ends is settled: it ended canceled, or on a
      rectangle of at least MIN_SIDE x MIN_SIDE pixels. */
  lemma {:induction false} FeedSettles(d: Drag, inputs: seq<Input>)
    requires !d.done || Settled(d)
    ensures Settled(Feed(d, inputs))
    decreases |inputs|
  {
    if !d.done && |inputs| > 0 {
      var next := Step(d, inputs[0]).0;
      assert !next.done || Settled(next);
      FeedSettles(next, inputs[1..]);
    }
  }

  /** A session that has ended stays as it is: the loop does not look at
      further inputs. */
  lemma FeedStopsWhenDone(d: Drag, inputs: seq<Input>)
    requires d.done
    ensures Feed(d, inputs) == d
  {
  }

  /** Esc at any moment before the end cancels the session, whatever input
      came before it that does not end the session (no Esc, no button-up). */
  lemma {:induction false} EscapeCancels(d: Drag, before: seq<Input>)
    requires !d.done
    requires forall i | 0 <= i < |before| :: before[i] != KeyDown(VK_ESCAPE) && !before[i].ButtonUp?
    ensures var e := Feed(d, before + [KeyDown(VK_ESCAPE)]);
            e.done && e.canceled
    decreases |before|
  {
    if |before| == 0 {
      assert before + [KeyDown(VK_ESCAPE)] == [KeyDown(VK_ESCAPE)];
    } else {
      var next := Step(d, before[0]).0;
      assert !next.done;
      assert (before + [KeyDown(VK_ESCAPE)])[1..] == before[1..] + [KeyDown(VK_ESCAPE)];
      EscapeCancels(next, before[1..]);
    }
  }

  /** A click without movement ends canceled. */
  lemma ClickWithoutDragCancels()
    ensures var e := Feed(Idle, [ButtonDown(Point(100, 100)), ButtonUp(Point(100, 100))]);
            e.done && e.canceled
  {
    var inputs := [ButtonDown(Point(100, 100)), ButtonUp(Point(100, 100))];
    assert inputs[1..] == [ButtonUp(Point(100, 100))];
  }

  /** A drag from (100,100) to (400,300) selects that 300 x 200 rectangle. */
  lemma DragSelectsRectangle()
    ensures var e := Feed(Idle, [ButtonDown(Point(100, 100)), Move(Point(250, 200)), ButtonUp(Point(400, 300))]);
            e.done && Settled(e) && Result(e) == Selected(Rect(100, 100, 400, 300))
  {
    var inputs := [ButtonDown(Point(100, 100)), Move(Point(250, 200)), ButtonUp(Point(400, 300))];
    assert inputs[1..] == [Move(Point(250, 200)), ButtonUp(Point(400, 300))];
    assert inputs[1..][1..] == [ButtonUp(Point(400, 300))];
  }
}

=== FILE: window.dfy ===
/** The selection window: `selectionWndProc` dispatching through the
    registry, the synchronous WM_DESTROY that DestroyWindow sends, and the
    polling loop of `runSelectionWindow`.

    Session states live in an object table and the registry maps a
    window's id to an object reference, as the Go map holds pointers: the
    loop keeps its own reference to the state after the window has been
    detached, and reads `done` through it.

    `markDone` selects the WM_DESTROY handler: `false` is the handler as
    written, which leaves `done` alone; `true` is the corrected handler,
    which ends a still-open session as canceled. See ClosedWindowHangs. */
module Window {
  import opened MachineInt
  import opened Wrappers
  import opened Geometry
  import opened Images
  import opened Channels
  import opened Resources
  import opened Selection
  import Render
  import opened Registry

  /** selectionState: the frame, the captured image, the window, the drag,
      the cached BGRA copy and the GDI buffers. */
  datatype Session = Session(view: View, img: Image, hwnd: uintptr, drag: Drag, bgra: Option<seq<byte>>, buffers: Buffers)

  /** The UI thread's view of the world: the registry, the session objects
      and the windows that exist. */
  datatype World = World(reg: Registry<nat>, objects: map<nat, Session>, nextObject: nat, alive: set<uintptr>)

  /** The messages the handler distinguishes. WM_PAINT carries what
      BeginPaint, the buffer allocations and CreatePen return; WM_CLOSE (the
      window being closed from outside, for instance with Alt+F4) reaches
      DefWindowProc, which destroys the window. */
  datatype Msg =
    | EraseBkgnd
    | Paint(hdc: uintptr, back: Alloc, black: Alloc, pen: uintptr)
    | In(input: Input)
    | Close
    | Other

  /** What the handler returns: a value of its own or DefWindowProc's. */
  datatype Reply = Returned(value: int) | DefWindowProc

  datatype Effects = Effects(reply: Reply, painting: Option<Render.Painting>, released: seq<Release>, reaction: Reaction, destroyed: bool)

  const Passed := Effects(DefWindowProc, None, [], PassOn, false)

  /** The object a window's registry entry refers to, if any. */
  function StateOf(w: World, hwnd: uintptr): Option<nat> {
    Lookup(w.reg, hwnd)
  }

  /** The captured image covers the frame exactly, four bytes per pixel. */
  predicate Covers(v: View, img: Image) {
    img.Valid() && img.width == v.vw && img.height == v.vh
  }

  /** A session's image covers its frame in whole pixels, its cached BGRA
      copy is the image with red and blue exchanged, and its DCs and bitmaps
      come in pairs. */
  predicate SessionOk(s: Session) {
    Covers(s.view, s.img) && |s.img.pix| % 4 == 0 &&
    (s.bgra.Some? ==> |s.bgra.value| == |s.img.pix| && SwapRedBlue(s.bgra.value) == s.img.pix) &&
    s.buffers.Paired()
  }

  /** Registry entries point at existing sessions, object references are
      below the allocation counter, and every session is SessionOk. */
  ghost predicate WellFormed(w: World) {
    (forall id | id in w.reg.states :: w.reg.states[id] in w.objects) &&
    (forall o | o in w.objects :: o < w.nextObject && SessionOk(w.objects[o]))
  }

  /** Replacing a session by one that is SessionOk keeps the world well formed. */
  lemma ReplaceSession(w: World, ref: nat, s: Session)
    requires WellFormed(w) && ref in w.objects && SessionOk(s)
    ensures WellFormed(w.(objects := w.objects[ref := s]))
  {
  }

  /** Detaching a window keeps the world well formed. */
  lemma DetachWellFormed(w: World, hwnd: uintptr)
    requires WellFormed(w)
    ensures WellFormed(w.(reg := Detach(w.reg, hwnd)))
  {
  }

  /** The session part of WM_DESTROY: free the buffers, and in the corrected
      handler end a session that is still open as canceled. */
  function Finish(markDone: bool, s: Session): (r: (Session, seq<Release>))
    requires SessionOk(s)
    ensures SessionOk(r.0)
    ensures r.0.buffers == NoBuffers && r.1 == FreeBuffers(s.buffers).1
    ensures r.0.view == s.view && r.0.img == s.img && r.0.bgra == s.bgra
    ensures s.drag.done || !markDone ==> r.0.drag == s.drag
    ensures markDone && !s.drag.done ==> r.0.drag == s.drag.(canceled := true, done := true)
  {
    var (b, released) := FreeBuffers(s.buffers);
    var drag := if markDone && !s.drag.done then s.drag.(canceled := true, done := true) else s.drag;
    (s.(buffers := b, drag := drag), released)
  }

  /** The WM_DESTROY handler: finish the attached session, if any, then
      detach the window. */
  function OnDestroy(markDone: bool, w: World, hwnd: uintptr): (r: (World, seq<Release>))
    requires WellFormed(w)
    ensures WellFormed(r.0) && r.0.objects.Keys == w.objects.Keys && r.0.alive == w.alive
    ensures r.0.nextObject == w.nextObject
    ensures StateOf(r.0, hwnd) == None
    ensures StateOf(w, hwnd).None? ==> r.0.objects == w.objects && r.1 == []
    ensures StateOf(w, hwnd).Some? ==>
      var ref := StateOf(w, hwnd).value;
      r.0.objects == w.objects[ref := Finish(markDone, w.objects[ref]).0] && r.1 == Finish(markDone, w.objects[ref]).1
  {
    var ref := StateOf(w, hwnd);
    if ref.None? then
      DetachWellFormed(w, hwnd);
      (w.(reg := Detach(w.reg, hwnd)), [])
    else
      var (s, released) := Finish(markDone, w.objects[ref.value]);
      ReplaceSession(w, ref.value, s);
      var w1 := w.(objects := w.objects[ref.value := s]);
      DetachWellFormed(w1, hwnd);
      (w1.(reg := Detach(w1.reg, hwnd)), released)
  }

  /** DestroyWindow: WM_DESTROY is handled before the call returns, and the
      window is gone afterwards. */
  function DestroyWindow(markDone: bool, w: World, hwnd: uintptr): (r: (World, seq<Release>))
    requires WellFormed(w)
    ensures WellFormed(r.0) && r.0.objects.Keys == w.objects.Keys && r.0.nextObject == w.nextObject
    ensures hwnd !in r.0.alive && StateOf(r.0, hwnd) == None
    ensures r.0.alive == w.alive - {hwnd}
    ensures r.0.objects == OnDestroy(markDone, w, hwnd).0.objects && r.1 == OnDestroy(markDone, w, hwnd).1
  {
    var (w1, released) := OnDestroy(markDone, w, hwnd);
    (w1.(alive := w1.alive - {hwnd}), released)
  }

  /** The WM_PAINT branch for an attached window: ensure the BGRA copy and
      the buffers, then draw. Nothing is drawn when BeginPaint fails. */
  function OnPaint(s: Session, hdc: uintptr, back: Alloc, black: Alloc, pen: uintptr): (r: (Session, Option<Render.Painting>, seq<Release>))
    requires SessionOk(s)
    ensures SessionOk(r.0)
    ensures r.0.drag == s.drag && r.0.view == s.view && r.0.img == s.img
    ensures hdc == 0 ==> r == (s, None, [])
    ensures hdc != 0 ==> r.1.Some? && r.0.bgra.Some?
    ensures hdc != 0 ==> r.1.value.target == (if r.0.buffers.back.dc != 0 then r.0.buffers.back.dc else hdc)
    // the buffers are the ensured ones, and the picture is the frame, dim and outline for this drag
    ensures hdc != 0 ==>
              (r.0.buffers, r.2) == EnsureBuffers(s.buffers, back, black) &&
              r.1 == Some(Render.Paint(s.view, s.drag, hdc, r.0.buffers.back.dc, r.0.buffers.black.dc, pen))
  {
    if hdc == 0 then (s, None, [])
    else
      var bgra := EnsureBgra(s.bgra, s.img.pix);
      var (b, released) := EnsureBuffers(s.buffers, back, black);
      var painting := Render.Paint(s.view, s.drag, hdc, b.back.dc, b.black.dc, pen);
      (s.(bgra := Some(bgra), buffers := b), Some(painting), released)
  }

  /** A paint hands back every DC and bitmap it replaced: what the session
      owns afterwards plus what the paint deleted is what it owned before
      plus what the paint acquired. */
  lemma PaintConserves(s: Session, hdc: uintptr, back: Alloc, black: Alloc, pen: uintptr)
    requires SessionOk(s) && hdc != 0
    ensures var r := OnPaint(s, hdc, back, black, pen);
            Owned(r.0.buffers) + Deleted(r.2) == Owned(s.buffers) + Acquired(s.buffers, back, black)
  {
    EnsureBuffersConserves(s.buffers, back, black);
  }

  /** The WM_PAINT branch for the attached session `ref`: paint, then
      return 0. */
  function PaintMsg(w: World, ref: nat, hdc: uintptr, back: Alloc, black: Alloc, pen: uintptr): (r: (World, Effects))
    requires WellFormed(w) && ref in w.objects
    ensures WellFormed(r.0) && r.0.nextObject == w.nextObject && r.0.reg == w.reg && r.0.alive == w.alive
    ensures r.0.objects.Keys == w.objects.Keys
    ensures forall o | o in w.objects && o != ref :: r.0.objects[o] == w.objects[o]
    ensures r.0.objects[ref].drag == w.objects[ref].drag
    ensures r.1.reply == Returned(0) && !r.1.destroyed && (r.1.painting.Some? <==> hdc != 0)
    // the session and the effects are OnPaint's
    ensures var p := OnPaint(w.objects[ref], hdc, back, black, pen);
            r.0.objects[ref] == p.0 && r.1 == Effects(Returned(0), p.1, p.2, PassOn, false)
  {
    var p := OnPaint(w.objects[ref], hdc, back, black, pen);
    ReplaceSession(w, ref, p.0);
    (w.(objects := w.objects[ref := p.0]), Effects(Returned(0), p.1, p.2, PassOn, false))
  }

  /** Store the drag the state machine produced and, when it asks for it,
      destroy the window; the handler then returns 0. */
  function Apply(markDone: bool, w: World, hwnd: uintptr, ref: nat, d: Drag, reaction: Reaction): (r: (World, Effects))
    requires WellFormed(w) && StateOf(w, hwnd) == Some(ref)
    requires reaction.destroy ==> d.done
    ensures WellFormed(r.0) && r.0.objects.Keys == w.objects.Keys && r.0.nextObject == w.nextObject
    ensures r.0.objects[ref].drag == d
    ensures forall o | o in w.objects && o != ref :: r.0.objects[o] == w.objects[o]
    ensures r.1.reply == Returned(0) && r.1.reaction == reaction && r.1.destroyed == reaction.destroy
    ensures reaction.destroy ==> hwnd !in r.0.alive && StateOf(r.0, hwnd) == None && r.0.objects[ref].buffers == NoBuffers
    ensures !reaction.destroy ==> r.0.reg == w.reg && r.0.alive == w.alive
  {
    var s := w.objects[ref].(drag := d);
    ReplaceSession(w, ref, s);
    var w1 := w.(objects := w.objects[ref := s]);
    if reaction.destroy then
      var (w2, released) := DestroyWindow(markDone, w1, hwnd);
      (w2, Effects(Returned(0), None, released, reaction, true))
    else (w1, Effects(Returned(0), None, [], reaction, false))
  }

  /** The pointer and key branches: run the state machine on the attached
      drag; what it does not handle goes to DefWindowProc. */
  function InputMsg(markDone: bool, w: World, hwnd: uintptr, e: Input): (r: (World, Effects))
    requires WellFormed(w)
    ensures WellFormed(r.0) && r.0.objects.Keys == w.objects.Keys && r.0.nextObject == w.nextObject
    ensures StateOf(w, hwnd).None? ==> r == (w, Passed)
    ensures r.1.destroyed ==> hwnd !in r.0.alive && StateOf(r.0, hwnd) == None
    ensures !r.1.destroyed ==> r.0.reg == w.reg && r.0.alive == w.alive
    ensures forall o | o in w.objects && Some(o) != StateOf(w, hwnd) :: r.0.objects[o] == w.objects[o]
    ensures StateOf(w, hwnd).Some? ==>
      var ref := StateOf(w, hwnd).value;
      var (d, reaction) := Step(w.objects[ref].drag, e);
      r.0.objects[ref].drag == d && r.1.reaction == reaction && r.1.destroyed == reaction.destroy &&
      (r.1.reply == Returned(0) <==> reaction.handled)
  {
    var ref := StateOf(w, hwnd);
    if ref.None? then (w, Passed)
    else
      var (d, reaction) := Step(w.objects[ref.value].drag, e);
      if !reaction.handled then (w, Passed)
      else Apply(markDone, w, hwnd, ref.value, d, reaction)
  }

  /** selectionWndProc for a window that exists. */
  function WndProc(markDone: bool, w: World, hwnd: uintptr, m: Msg): (r: (World, Effects))
    requires WellFormed(w)
    ensures WellFormed(r.0) && r.0.objects.Keys == w.objects.Keys && r.0.nextObject == w.nextObject
    ensures m.EraseBkgnd? ==> r == (w, Effects(Returned(1), None, [], PassOn, false))
    ensures m.Other? ==> r == (w, Passed)
    // without an attached state every message but WM_ERASEBKGND and WM_CLOSE goes to DefWindowProc untouched
    ensures StateOf(w, hwnd).None? && !m.EraseBkgnd? && !m.Close? ==> r == (w, Passed)
    ensures r.1.destroyed ==> hwnd !in r.0.alive && StateOf(r.0, hwnd) == None
    ensures !r.1.destroyed ==> r.0.reg == w.reg && r.0.alive == w.alive
  {
    match m
    case EraseBkgnd => (w, Effects(Returned(1), None, [], PassOn, false))
    case Other => (w, Passed)
    case Close =>
      var (w1, released) := DestroyWindow(markDone, w, hwnd);
      (w1, Effects(DefWindowProc, None, released, PassOn, true))
    case Paint(hdc, back, black, pen) =>
      if StateOf(w, hwnd).None? then (w, Passed) else PaintMsg(w, StateOf(w, hwnd).value, hdc, back, black, pen)
    case In(e) => InputMsg(markDone, w, hwnd, e)
  }

  /** An input moves the attached drag exactly as the state machine says,
      leaves other sessions alone, and destroys the window exactly when the
      state machine asks for it. */
  lemma InputFollowsStep(markDone: bool, w: World, hwnd: uintptr, e: Input)
    requires WellFormed(w) && StateOf(w, hwnd).Some?
    ensures var ref := StateOf(w, hwnd).value;
            var r := WndProc(markDone, w, hwnd, In(e));
            var (d, reaction) := Step(w.objects[ref].drag, e);
            r.0.objects[ref].drag == d && r.1.reaction == reaction && r.1.destroyed == reaction.destroy &&
            (r.1.reply == Returned(0) <==> reaction.handled) &&
            (forall o | o in w.objects && o != ref :: r.0.objects[o] == w.objects[o])
  {
  }

  /** WM_PAINT to a window with an attached state is the paint branch: the
      session and what is painted and released are OnPaint's, and nothing
      else changes. */
  lemma PaintFollowsOnPaint(markDone: bool, w: World, hwnd: uintptr, hdc: uintptr, back: Alloc, black: Alloc, pen: uintptr)
    requires WellFormed(w) && StateOf(w, hwnd).Some?
    ensures var ref := StateOf(w, hwnd).value;
            var p := OnPaint(w.objects[ref], hdc, back, black, pen);
            var r := WndProc(markDone, w, hwnd, Paint(hdc, back, black, pen));
            r.0.objects[ref] == p.0 && r.1 == Effects(Returned(0), p.1, p.2, PassOn, false) &&
            r.0.reg == w.reg && r.0.alive == w.alive &&
            (forall o | o in w.objects && o != ref :: r.0.objects[o] == w.objects[o])
  {
  }

  /** WM_CLOSE goes to DefWindowProc, which destroys the window: the
      session's buffers are freed and the window is detached, but only the
      corrected WM_DESTROY handler ends a session that is still open. */
  lemma CloseDestroys(markDone: bool, w: World, hwnd: uintptr)
    requires WellFormed(w) && StateOf(w, hwnd).Some?
    ensures var ref := StateOf(w, hwnd).value;
            var r := WndProc(markDone, w, hwnd, Close);
            var s, s' := w.objects[ref], r.0.objects[ref];
            r.1.destroyed && r.1.reply == DefWindowProc && s'.buffers == NoBuffers &&
            Deleted(r.1.released) == Owned(s.buffers) &&
            (!s.drag.done ==> (s'.drag.done <==> markDone)) &&
            (markDone && !s.drag.done ==> s'.drag.canceled)
  {
    FreeBuffersReleases(w.objects[StateOf(w, hwnd).value].buffers);
  }

  /** The loop hands a message to the handler only while the window exists. */
  function Deliver(markDone: bool, w: World, hwnd: uintptr, m: Msg): (r: World)
    requires WellFormed(w)
    ensures WellFormed(r) && r.objects.Keys == w.objects.Keys && r.nextObject == w.nextObject
    ensures hwnd !in w.alive ==> r == w
  {
    if hwnd in w.alive then WndProc(markDone, w, hwnd, m).0 else w
  }

  /** `for !st.done`: dispatch messages until the session `ref` is done or
      no message is left. */
  function Pump(markDone: bool, w: World, hwnd: uintptr, ref: nat, msgs: seq<Msg>): (r: World)
    requires WellFormed(w) && ref in w.objects
    ensures WellFormed(r) && r.objects.Keys == w.objects.Keys && r.nextObject == w.nextObject
    decreases |msgs|
  {
    if w.objects[ref].drag.done || |msgs| == 0 then w
    else Pump(markDone, Deliver(markDone, w, hwnd, msgs[0]), hwnd, ref, msgs[1..])
  }

  /** The window is gone: destroyed, detached, its buffers freed. */
  ghost predicate Gone(w: World, hwnd: uintptr, ref: nat) {
    ref in w.objects && hwnd !in w.alive && StateOf(w, hwnd) == None && w.objects[ref].buffers == NoBuffers
  }

  /** The session is open: not done, and its window exists and is attached to it. */
  ghost predicate Open(w: World, hwnd: uintptr, ref: nat) {
    ref in w.objects && !w.objects[ref].drag.done && hwnd in w.alive && StateOf(w, hwnd) == Some(ref)
  }

  /** The session has ended: done, settled, and its window is gone. */
  ghost predicate Ended(w: World, hwnd: uintptr, ref: nat) {
    Gone(w, hwnd, ref) && w.objects[ref].drag.done && Settled(w.objects[ref].drag)
  }

  /** The window is gone but the session is not done: no message can reach
      a handler that would end it. */
  ghost predicate Stranded(w: World, hwnd: uintptr, ref: nat) {
    Gone(w, hwnd, ref) && !w.objects[ref].drag.done
  }

  /** What the loop can observe: with the corrected handler a session is
      open or ended; as written it may also be stranded. */
  ghost predicate Reachable(markDone: bool, w: World, hwnd: uintptr, ref: nat) {
    Open(w, hwnd, ref) || Ended(w, hwnd, ref) || (!markDone && Stranded(w, hwnd, ref))
  }

  /** One message to an open session leaves it open or ends it; only WM_CLOSE
      under the handler as written strands it. */
  lemma DeliverStep(markDone: bool, w: World, hwnd: uintptr, ref: nat, m: Msg)
    requires WellFormed(w) && Open(w, hwnd, ref)
    ensures var r := Deliver(markDone, w, hwnd, m);
            Open(r, hwnd, ref) || Ended(r, hwnd, ref) || (!markDone && m.Close? && Stranded(r, hwnd, ref))
  {
    match m
    case In(e) => InputFollowsStep(markDone, w, hwnd, e);
    case Close => CloseDestroys(markDone, w, hwnd);
    case _ =>
  }

  /** A stranded session stays stranded whatever arrives. */
  lemma {:induction false} StrandedStays(markDone: bool, w: World, hwnd: uintptr, ref: nat, msgs: seq<Msg>)
    requires WellFormed(w) && Stranded(w, hwnd, ref)
    ensures Pump(markDone, w, hwnd, ref, msgs) == w
    decreases |msgs|
  {
    if |msgs| > 0 {
      StrandedStays(markDone, w, hwnd, ref, msgs[1..]);
    }
  }

  /** The loop keeps the session reachable. */
  lemma {:induction false} PumpReachable(markDone: bool, w: World, hwnd: uintptr, ref: nat, msgs: seq<Msg>)
    requires WellFormed(w) && Reachable(markDone, w, hwnd, ref)
    ensures Reachable(markDone, Pump(markDone, w, hwnd, ref, msgs), hwnd, ref)
    decreases |msgs|
  {
    if !w.objects[ref].drag.done && |msgs| > 0 {
      if Open(w, hwnd, ref) {
        DeliverStep(markDone, w, hwnd, ref, msgs[0]);
        PumpReachable(markDone, Deliver(markDone, w, hwnd, msgs[0]), hwnd, ref, msgs[1..]);
      } else {
        StrandedStays(markDone, w, hwnd, ref, msgs);
      }
    }
  }

  /** Running the loop over two batches of messages is running it over both. */
  lemma {:induction false} PumpAppend(markDone: bool, w: World, hwnd: uintptr, ref: nat, a: seq<Msg>, b: seq<Msg>)
    requires WellFormed(w) && ref in w.objects
    ensures Pump(markDone, w, hwnd, ref, a + b) == Pump(markDone, Pump(markDone, w, hwnd, ref, a), hwnd, ref, b)
    decreases |a|
  {
    if |a| == 0 {
      assert a + b == b;
    } else if !w.objects[ref].drag.done {
      assert (a + b)[0] == a[0] && (a + b)[1..] == a[1..] + b;
      PumpAppend(markDone, Deliver(markDone, w, hwnd, a[0]), hwnd, ref, a[1..], b);
    }
  }

  /** The input messages carrying `inputs`, in order. */
  function Inputs(inputs: seq<Input>): (ms: seq<Msg>)
    ensures |ms| == |inputs|
    ensures forall i | 0 <= i < |inputs| :: ms[i] == In(inputs[i])
    decreases |inputs|
  {
    if |inputs| == 0 then [] else [In(inputs[0])] + Inputs(inputs[1..])
  }

  /** Fed only pointer and key input, the message loop moves the session's
      drag exactly as the drag-level loop Selection.Feed does. */
  lemma {:induction false} PumpFeeds(markDone: bool, w: World, hwnd: uintptr, ref: nat, inputs: seq<Input>)
    requires WellFormed(w) && (Open(w, hwnd, ref) || Ended(w, hwnd, ref))
    ensures var r := Pump(markDone, w, hwnd, ref, Inputs(inputs));
            r.objects[ref].drag == Feed(w.objects[ref].drag, inputs) && (Open(r, hwnd, ref) || Ended(r, hwnd, ref))
    decreases |inputs|
  {
    if !w.objects[ref].drag.done && |inputs| > 0 {
      var ms := Inputs(inputs);
      assert ms == [In(inputs[0])] + Inputs(inputs[1..]);
      assert ms[0] == In(inputs[0]) && ms[1..] == Inputs(inputs[1..]);
      InputFollowsStep(markDone, w, hwnd, inputs[0]);
      DeliverStep(markDone, w, hwnd, ref, In(inputs[0]));
      PumpFeeds(markDone, Deliver(markDone, w, hwnd, In(inputs[0])), hwnd, ref, inputs[1..]);
    }
  }

  /** runSelectionWindow's result: the window could not be created, the
      loop is still waiting for messages, or the session finished. */
  datatype Run = WindowFailed | Waiting | Finished(outcome: Outcome)

  /** A fresh session attached to a newly created window. */
  function Start(w: World, v: View, img: Image, hwnd: uintptr): (r: (World, nat))
    requires WellFormed(w) && Covers(v, img) && hwnd !in w.alive
    ensures WellFormed(r.0) && Open(r.0, hwnd, r.1) && r.0.objects[r.1].drag == Idle
    ensures r.1 == w.nextObject && r.1 !in w.objects
    // the session holds the captured frame and image, for this window
    ensures r.0.objects[r.1] == Session(v, img, hwnd, Idle, None, NoBuffers)
    ensures forall o | o in w.objects :: o in r.0.objects && r.0.objects[o] == w.objects[o]
  {
    var ref := w.nextObject;
    assert |img.pix| % 4 == 0 by {
      assert |img.pix| == (img.width * img.height) * 4;
    }
    var w1 := World(Attach(w.reg, hwnd, ref), w.objects[ref := Session(v, img, hwnd, Idle, None, NoBuffers)], ref + 1, w.alive + {hwnd});
    assert forall id | id in w1.reg.states :: w1.reg.states[id] in w1.objects;
    (w1, ref)
  }

  /** runSelectionWindow: create the window, attach a fresh session, pump
      messages until it is done, then report. */
  function RunSelectionWindow(markDone: bool, w: World, v: View, img: Image, hwnd: uintptr, msgs: seq<Msg>): (r: (Run, World))
    requires WellFormed(w) && Covers(v, img) && hwnd !in w.alive
    ensures WellFormed(r.1)
    ensures hwnd == 0 ==> r == (WindowFailed, w)
    // a selection that is reported is normalized and at least 3 x 3
    ensures r.0.Finished? && r.0.outcome.Selected? ==> r.0.outcome.rect.Normalized() && r.0.outcome.rect.Fits32() && LargeEnough(r.0.outcome.rect)
    // a finished session has destroyed and detached its window and freed its buffers
    ensures r.0.Finished? ==> hwnd !in r.1.alive && StateOf(r.1, hwnd) == None
    // the reported outcome is the final drag of the session created for this window
    ensures r.0.Finished? ==>
              w.nextObject in r.1.objects && w.nextObject !in w.objects &&
              (r.0.outcome.Canceled? <==> r.1.objects[w.nextObject].drag.canceled) &&
              (r.0.outcome.Selected? ==> r.0.outcome.rect == Span(r.1.objects[w.nextObject].drag))
    // with the corrected handler the loop waits only while its window exists
    ensures markDone && r.0.Waiting? ==> hwnd in r.1.alive
  {
    if hwnd == 0 then (WindowFailed, w)
    else
      var (w1, ref) := Start(w, v, img, hwnd);
      PumpReachable(markDone, w1, hwnd, ref, msgs);
      Report(markDone, Pump(markDone, w1, hwnd, ref, msgs), hwnd, ref)
  }

  /** What runSelectionWindow reports once its loop stops. */
  function Report(markDone: bool, w: World, hwnd: uintptr, ref: nat): (r: (Run, World))
    requires WellFormed(w) && Reachable(markDone, w, hwnd, ref)
    ensures r.1 == w && (r.0.Waiting? <==> !w.objects[ref].drag.done)
    ensures r.0.Finished? ==> Ended(w, hwnd, ref)
    ensures r.0.Finished? && r.0.outcome.Selected? ==> r.0.outcome.rect.Normalized() && r.0.outcome.rect.Fits32() && LargeEnough(r.0.outcome.rect)
    ensures r.0.Finished? ==> (r.0.outcome.Canceled? <==> w.objects[ref].drag.canceled)
    ensures r.0.Finished? && r.0.outcome.Selected? ==> r.0.outcome.rect == Span(w.objects[ref].drag)
  {
    var d := w.objects[ref].drag;
    if !d.done then (Waiting, w) else (Finished(Selection.Result(d)), w)
  }

  /** Unfolding a run whose window was created. */
  lemma RunPumps(markDone: bool, w: World, v: View, img: Image, hwnd: uintptr, msgs: seq<Msg>)
    requires WellFormed(w) && Covers(v, img) && hwnd !in w.alive && hwnd != 0
    ensures var (w1, ref) := Start(w, v, img, hwnd);
            Reachable(markDone, Pump(markDone, w1, hwnd, ref, msgs), hwnd, ref) &&
            RunSelectionWindow(markDone, w, v, img, hwnd, msgs) == Report(markDone, Pump(markDone, w1, hwnd, ref, msgs), hwnd, ref)
  {
    var (w1, ref) := Start(w, v, img, hwnd);
    PumpReachable(markDone, w1, hwnd, ref, msgs);
  }

  lemma Regroup3<T>(a: seq<T>, b: seq<T>, c: seq<T>)
    ensures a + b + c == a + (b + c)
  {
  }

  /** As written: WM_CLOSE to a session that is still waiting strands it,
      whatever follows. */
  lemma CloseStrands(w: World, hwnd: uintptr, ref: nat, after: seq<Msg>)
    requires WellFormed(w) && Reachable(false, w, hwnd, ref) && !w.objects[ref].drag.done
    ensures Stranded(Pump(false, w, hwnd, ref, [Close] + after), hwnd, ref)
  {
    var rest := [Close] + after;
    assert rest[0] == Close && rest[1..] == after;
    if Open(w, hwnd, ref) {
      DeliverStep(false, w, hwnd, ref, Close);
      StrandedStays(false, Deliver(false, w, hwnd, Close), hwnd, ref, after);
    } else {
      StrandedStays(false, w, hwnd, ref, rest);
    }
  }

  /** Corrected: WM_CLOSE to a session that is still waiting cancels it. */
  lemma CloseCancels(w: World, hwnd: uintptr, ref: nat, after: seq<Msg>)
    requires WellFormed(w) && Reachable(true, w, hwnd, ref) && !w.objects[ref].drag.done
    ensures var d := Pump(true, w, hwnd, ref, [Close] + after).objects[ref].drag;
            d.done && d.canceled
  {
    var rest := [Close] + after;
    assert rest[0] == Close && rest[1..] == after;
    CloseDestroys(true, w, hwnd);
  }

  /** As written: a window closed from outside (WM_CLOSE, for instance
      Alt+F4) is destroyed and detached, but the session is never marked
      done, so the loop waits forever whatever arrives afterwards. */
  lemma ClosedWindowHangs(w: World, v: View, img: Image, hwnd: uintptr, before: seq<Msg>, after: seq<Msg>)
    requires WellFormed(w) && Covers(v, img) && hwnd !in w.alive && hwnd != 0
    requires RunSelectionWindow(false, w, v, img, hwnd, before).0 == Waiting
    ensures var r := RunSelectionWindow(false, w, v, img, hwnd, before + [Close] + after);
            r.0 == Waiting && hwnd !in r.1.alive
  {
    var (w1, ref) := Start(w, v, img, hwnd);
    RunPumps(false, w, v, img, hwnd, before);
    RunPumps(false, w, v, img, hwnd, before + [Close] + after);
    PumpReachable(false, w1, hwnd, ref, before);
    PumpAppend(false, w1, hwnd, ref, before, [Close] + after);
    Regroup3(before, [Close], after);
    CloseStrands(Pump(false, w1, hwnd, ref, before), hwnd, ref, after);
  }

  /** Corrected: closing the window from outside ends a waiting session as
      canceled. */
  lemma ClosedWindowCancels(w: World, v: View, img: Image, hwnd: uintptr, before: seq<Msg>, after: seq<Msg>)
    requires WellFormed(w) && Covers(v, img) && hwnd !in w.alive && hwnd != 0
    requires RunSelectionWindow(true, w, v, img, hwnd, before).0 == Waiting
    ensures RunSelectionWindow(true, w, v, img, hwnd, before + [Close] + after).0 == Finished(Canceled)
  {
    var (w1, ref) := Start(w, v, img, hwnd);
    RunPumps(true, w, v, img, hwnd, before);
    RunPumps(true, w, v, img, hwnd, before + [Close] + after);
    PumpReachable(true, w1, hwnd, ref, before);
    PumpAppend(true, w1, hwnd, ref, before, [Close] + after);
    Regroup3(before, [Close], after);
    CloseCancels(Pump(true, w1, hwnd, ref, before), hwnd, ref, after);
  }

  /** Fed only pointer and key input, runSelectionWindow reports what the
      drag-level loop reaches from an idle drag: it waits exactly while that
      drag is not done, and otherwise returns its result. */
  lemma RunSelectionWindowFeeds(markDone: bool, w: World, v: View, img: Image, hwnd: uintptr, inputs: seq<Input>)
    requires WellFormed(w) && Covers(v, img) && hwnd !in w.alive && hwnd != 0
    ensures var d := Feed(Idle, inputs);
            var r := RunSelectionWindow(markDone, w, v, img, hwnd, Inputs(inputs));
            Settled(d) && (r.0.Waiting? <==> !d.done) && (d.done ==> r.0 == Finished(Selection.Result(d)))
  {
    var (w1, ref) := Start(w, v, img, hwnd);
    RunPumps(markDone, w, v, img, hwnd, Inputs(inputs));
    PumpFeeds(markDone, w1, hwnd, ref, inputs);
    FeedSettles(Idle, inputs);
  }

  /** Esc after any input that does not end the session makes
      runSelectionWindow return canceled. */
  lemma EscapeCancelsWindow(markDone: bool, w: World, v: View, img: Image, hwnd: uintptr, before: seq<Input>)
    requires WellFormed(w) && Covers(v, img) && hwnd !in w.alive && hwnd != 0
    requires forall i | 0 <= i < |before| :: before[i] != KeyDown(VK_ESCAPE) && !before[i].ButtonUp?
    ensures RunSelectionWindow(markDone, w, v, img, hwnd, Inputs(before + [KeyDown(VK_ESCAPE)])).0 == Finished(Canceled)
  {
    RunSelectionWindowFeeds(markDone, w, v, img, hwnd, before + [KeyDown(VK_ESCAPE)]);
    EscapeCancels(Idle, before);
  }
}

=== FILE: worker.dfy ===
/** The UI worker: one request runs capture, selection, crop, encoding and
    upload in order, stopping at the first failure with an error dialog;
    a finished recognition is copied to the clipboard and shown, shortened
    to 2000 runes. The PNG encoder and the HTTP upload are parameters. */
module Worker {
  import opened MachineInt
  import opened Wrappers
  import opened Geometry
  import opened Images
  import opened Capture
  import opened Selection
  import opened Window

  const MAX_RUNES := 2000
  const TRUNCATION_NOTE := "\n\n...(Content truncated. Full text has been copied to the clipboard)"
  const EMPTY_TEXT := "(empty)"
  const ERROR_TITLE := "OCR Error"
  const RESULT_TITLE := "OCR Result (Copied to clipboard)"
  const WINDOW_FAILED := "CreateWindowExW failed"

  /** A top-most message box: its caption and its text. */
  datatype Dialog = Dialog(title: string, text: string)

  /** How a request ended: still inside the selection loop, or returned
      (and so posting WM_UI_DONE), leaving at most one dialog and possibly
      the recognised text on the clipboard. */
  datatype Handled =
    | Selecting
    | Completed(dialog: Option<Dialog>, clipboard: Option<string>)

  function ErrorBox(msg: string): Handled {
    Completed(Some(Dialog(ERROR_TITLE, msg)), None)
  }

  /** The text shown in the result box: "(empty)" for no text, the text
      itself up to 2000 runes, otherwise its first 2000 runes and a note. */
  function DisplayText(text: string): (msg: string)
    ensures |msg| <= MAX_RUNES + |TRUNCATION_NOTE|
    ensures text == "" ==> msg == EMPTY_TEXT
    ensures 0 < |text| <= MAX_RUNES ==> msg == text
    ensures |text| > MAX_RUNES ==>
              |msg| == MAX_RUNES + |TRUNCATION_NOTE| && msg[..MAX_RUNES] == text[..MAX_RUNES] && msg[MAX_RUNES..] == TRUNCATION_NOTE
  {
    var shown := if text == "" then EMPTY_TEXT else text;
    if |shown| > MAX_RUNES then shown[..MAX_RUNES] + TRUNCATION_NOTE else shown
  }

  /** The shown text starts with as much of the recognised text as fits. */
  lemma DisplayTextPrefix(text: string)
    requires text != ""
    ensures var n := if |text| < MAX_RUNES then |text| else MAX_RUNES;
            n <= |DisplayText(text)| && DisplayText(text)[..n] == text[..n]
  {
  }

  /** Shortening is idempotent: showing the shown text again changes nothing. */
  lemma DisplayTextIdempotent(text: string)
    ensures DisplayText(DisplayText(text)) == DisplayText(text)
  {
    var msg := DisplayText(text);
    if |text| > MAX_RUNES {
      assert msg == msg[..MAX_RUNES] + msg[MAX_RUNES..];
    }
  }

  /** One request (the body of uiThreadLoop's loop). `markDone` selects the
      WM_DESTROY handler: as written (false) or corrected (true); see
      Window.ClosedWindowHangs. */
  function ProcessRequest(markDone: bool, v: View, n: Native, w: World, hwnd: uintptr, msgs: seq<Msg>,
                          encode: Image -> Result<seq<byte>, string>,
                          upload: seq<byte> -> Result<string, string>): (r: (Handled, World))
    requires v.vw >= 1 && v.vh >= 1 && v.vw * v.vh * 4 <= INT32_MAX && ValidReadback(v, n)
    requires WellFormed(w) && hwnd !in w.alive
    ensures WellFormed(r.1)
    // a failed capture is reported and nothing else happens
    ensures CaptureVirtualScreen(v, n).Failure? ==>
              r == (ErrorBox(ErrorText(CaptureVirtualScreen(v, n).error)), w)
    // text reaches the clipboard only together with the result box showing it
    ensures r.0.Completed? && r.0.clipboard.Some? ==>
              r.0.dialog == Some(Dialog(RESULT_TITLE, DisplayText(r.0.clipboard.value)))
    // a dialog that is not the result box is an error box, and then nothing was copied
    ensures r.0.Completed? && r.0.dialog.Some? && r.0.dialog.value.title != RESULT_TITLE ==>
              r.0.dialog.value.title == ERROR_TITLE && r.0.clipboard.None?
    // the request stays unfinished only inside the selection loop; with the
    // corrected handler, only while its window still exists
    ensures r.0.Selecting? ==> CaptureVirtualScreen(v, n).Success? && hwnd != 0
    ensures markDone && r.0.Selecting? ==> hwnd in r.1.alive
    // after a capture: the selection window's outcome decides what follows
    ensures CaptureVirtualScreen(v, n).Success? ==>
              var frame := CaptureVirtualScreen(v, n).value;
              var run := RunSelectionWindow(markDone, w, frame.view, frame.img, hwnd, msgs);
              r.1 == run.1 &&
              (run.0.WindowFailed? ==> r.0 == ErrorBox(WINDOW_FAILED)) &&
              (run.0.Waiting? ==> r.0 == Selecting) &&
              (run.0 == Finished(Canceled) ==> r.0 == Completed(None, None)) &&
              (run.0.Finished? && run.0.outcome.Selected? ==>
                 r.0 == AfterSelection(frame, run.0.outcome.rect, encode, upload))
  {
    var cap := CaptureVirtualScreen(v, n);
    if cap.Failure? then (ErrorBox(ErrorText(cap.error)), w)
    else
      var frame := cap.value;
      var (run, w1) := RunSelectionWindow(markDone, w, frame.view, frame.img, hwnd, msgs);
      match run
      case WindowFailed => (ErrorBox(WINDOW_FAILED), w1)
      case Waiting => (Selecting, w1)
      case Finished(Canceled) => (Completed(None, None), w1)
      case Finished(Selected(rc)) => (AfterSelection(frame, rc, encode, upload), w1)
  }

  /** As written: once the selection window is closed from outside, the
      request never returns, so WM_UI_DONE is never posted and the hotkey
      stays unregistered, whatever arrives afterwards. */
  lemma ClosedRequestHangs(v: View, n: Native, w: World, hwnd: uintptr, before: seq<Msg>, after: seq<Msg>,
                           encode: Image -> Result<seq<byte>, string>,
                           upload: seq<byte> -> Result<string, string>)
    requires v.vw >= 1 && v.vh >= 1 && v.vw * v.vh * 4 <= INT32_MAX && ValidReadback(v, n)
    requires WellFormed(w) && hwnd !in w.alive
    requires ProcessRequest(false, v, n, w, hwnd, before, encode, upload).0.Selecting?
    ensures var r := ProcessRequest(false, v, n, w, hwnd, before + [Close] + after, encode, upload);
            r.0.Selecting? && hwnd !in r.1.alive
  {
    var frame := CaptureVirtualScreen(v, n).value;
    ClosedWindowHangs(w, frame.view, frame.img, hwnd, before, after);
  }

  /** Corrected: closing the selection window from outside ends the request
      quietly, with no dialog and nothing copied, so WM_UI_DONE is posted. */
  lemma ClosedRequestEndsQuietly(v: View, n: Native, w: World, hwnd: uintptr, before: seq<Msg>, after: seq<Msg>,
                                 encode: Image -> Result<seq<byte>, string>,
                                 upload: seq<byte> -> Result<string, string>)
    requires v.vw >= 1 && v.vh >= 1 && v.vw * v.vh * 4 <= INT32_MAX && ValidReadback(v, n)
    requires WellFormed(w) && hwnd !in w.alive
    requires ProcessRequest(true, v, n, w, hwnd, before, encode, upload).0.Selecting?
    ensures ProcessRequest(true, v, n, w, hwnd, before + [Close] + after, encode, upload).0 == Completed(None, None)
  {
    var frame := CaptureVirtualScreen(v, n).value;
    ClosedWindowCancels(w, frame.view, frame.img, hwnd, before, after);
  }

  /** What follows a selection: crop (an empty crop ends silently), encode,
      upload, then copy and show the text. */
  function AfterSelection(frame: Frame, rc: Rect,
                          encode: Image -> Result<seq<byte>, string>,
                          upload: seq<byte> -> Result<string, string>): (h: Handled)
    requires frame.img.Valid() && rc.Fits32()
    ensures h.Completed?
    ensures Crop(frame.img, frame.view.vx, frame.view.vy, rc.left, rc.top, rc.right, rc.bottom).None? ==>
              h == Completed(None, None)
    ensures h.clipboard.Some? ==> h.dialog == Some(Dialog(RESULT_TITLE, DisplayText(h.clipboard.value)))
    ensures h.dialog.Some? && h.dialog.value.title != RESULT_TITLE ==> h.dialog.value.title == ERROR_TITLE && h.clipboard.None?
    // an encoder or upload error is shown in an error box; a recognition is copied and shown
    ensures var crop := Crop(frame.img, frame.view.vx, frame.view.vy, rc.left, rc.top, rc.right, rc.bottom);
            crop.Some? ==>
              (encode(crop.value).Failure? ==> h == ErrorBox(encode(crop.value).error)) &&
              (encode(crop.value).Success? && upload(encode(crop.value).value).Failure? ==>
                 h == ErrorBox(upload(encode(crop.value).value).error)) &&
              (encode(crop.value).Success? && upload(encode(crop.value).value).Success? ==>
                 var text := upload(encode(crop.value).value).value;
                 h == Completed(Some(Dialog(RESULT_TITLE, DisplayText(text))), Some(text)))
  {
    var crop := Crop(frame.img, frame.view.vx, frame.view.vy, rc.left, rc.top, rc.right, rc.bottom);
    if crop.None? then Completed(None, None)
    else
      match encode(crop.value)
      case Failure(e) => ErrorBox(e)
      case Success(png) =>
        match upload(png)
        case Failure(e) => ErrorBox(e)
        case Success(text) => Completed(Some(Dialog(RESULT_TITLE, DisplayText(text))), Some(text))
  }

  /** The whole recognised text, not the shortened one, goes to the
      clipboard: a successful upload of the encoded crop is copied verbatim. */
  lemma CopiesFullText(frame: Frame, rc: Rect,
                       encode: Image -> Result<seq<byte>, string>,
                       upload: seq<byte> -> Result<string, string>)
    requires frame.img.Valid() && rc.Fits32()
    requires var crop := Crop(frame.img, frame.view.vx, frame.view.vy, rc.left, rc.top, rc.right, rc.bottom);
             crop.Some? && encode(crop.value).Success? && upload(encode(crop.value).value).Success?
    ensures var crop := Crop(frame.img, frame.view.vx, frame.view.vy, rc.left, rc.top, rc.right, rc.bottom);
            var text := upload(encode(crop.value).value).value;
            AfterSelection(frame, rc, encode, upload).clipboard == Some(text)
  {
  }

  /** A selection lying inside the captured frame crops to an image of
      exactly its size, so at least 3 x 3, whose pixels are the frame's. */
  lemma SelectionCropsToSize(frame: Frame, rc: Rect)
    requires frame.img.Valid() && frame.img.width == frame.view.vw && frame.img.height == frame.view.vh
    requires rc.Fits32() && rc.Normalized() && LargeEnough(rc)
    requires frame.view.vx <= rc.left && rc.right <= frame.view.vx + frame.view.vw
    requires frame.view.vy <= rc.top && rc.bottom <= frame.view.vy + frame.view.vh
    ensures var crop := Crop(frame.img, frame.view.vx, frame.view.vy, rc.left, rc.top, rc.right, rc.bottom);
            crop.Some? && crop.value.width == rc.right - rc.left >= MIN_SIDE &&
            crop.value.height == rc.bottom - rc.top >= MIN_SIDE &&
            forall x: nat, y: nat | x < crop.value.width && y < crop.value.height ::
              PixelAt(crop.value, x, y) == PixelAt(frame.img, rc.left - frame.view.vx + x, rc.top - frame.view.vy + y)
  {
    CropInsideFrame(frame.img, frame.view.vx, frame.view.vy, rc.left, rc.top, rc.right, rc.bottom);
  }
}

=== FILE: wrappers.dfy ===
/** Failure-carrying wrappers shared by the whole model: a Go `nil` pointer
    result becomes `None`, a Go `(value, error)` pair becomes a `Result`. */
module Wrappers {

  datatype Option<+T> = None | Some(value: T)

  datatype Result<+T, +E> = Success(value: T) | Failure(error: E)
}
